=== FILE: README.md ===
# VivaSec privacy dashboard — data layer, procedure router and page derivations

VivaSec is a privacy dashboard. Each signed-in user owns rows in a set of
MySQL tables:

- privacy scores and metrics;
- alerts and recommendations;
- streaks and badges;
- password-vault entries;
- email aliases and quarantined mail;
- VPN sessions and tracker-block statistics.

The server exposes these tables through a procedure router. Three pages
derive their numbers from the procedures' answers. This project models that
core in Dafny:

- `Schema` (`schema.dfy`) is the relational schema. It has one datatype per
  table and per enumeration. Each `To…` function gives the row an insert
  stores, with the column defaults filled in. `Db.Valid` states every
  declared key: the auto-increment primary keys, unique `users.openId` and
  unique `emailAliases.aliasEmail`. The store is `Option<Db>`, where `None`
  means no database is reachable.
- `Seqs` (`seqs.dfy`) holds the query forms the data layer issues: WHERE,
  ORDER BY … DESC, LIMIT and LIMIT 1.
  - SQL leaves the order of rows with equal sort keys open. So each form is a
    predicate that accepts every correct answer, for example
    `IsOrderedSelection`: exactly the matching rows, with multiplicity, keys
    non-increasing.
  - The functions `OrderedSelect`, `LimitedSelect`, `FirstMatch` and
    `LatestMatch` compute one such answer. They sort with an insertion sort
    over sequences.
- `UserUpsert` (`upsert.dfy`) is `upsertUser`. `Assemble` turns the login
  record into an insert row and an ON DUPLICATE KEY UPDATE set. `UpsertUser`
  applies them to the `users` table.
- `Data` (`data.dfy`) has every other data-access function as a query or a
  store-to-store transition. Each one takes an explicit clock `now`.
  - Reads on an absent store answer `[]` or no row.
  - Writes on an absent store fail with `StorageUnavailable`.
  - The fixed answers of the mock functions are constants:
    `DefaultPreferences` and `VpnServers`.
- `Router` (`router.dfy`) is the procedure table.
  - `Bind` gives the data-layer call a protected procedure makes for the
    signed-in caller.
  - `Dispatch` answers a request, or `Unauthorized` when a protected
    procedure has no caller.
- `Dashboard`, `Vault` and `Surf` (`dashboard.dfy`, `vault.dfy`, `surf.dfy`)
  cover what the three pages compute from their queries:
  - the displayed score and its band;
  - alert colours;
  - vault counts and the breach banner;
  - the tracker total;
  - the top-N lists.

Two behaviours of the code are worth stating up front:

- **Owner promotion.** An upsert carrying the owner's openId writes `admin`
  only when it supplies no role; a supplied role is stored as given, even
  for the owner (`UserUpsert.UpsertRole`).
- **Streak rows.** Nothing makes `privacyStreaks.userId` unique, and
  `updatePrivacyStreak` only ever inserts: streak rows are appended, never
  updated in place (`Data.StreakUpdateAppends`). `getPrivacyStreak` may then
  answer any of a user's rows (`Data.StreakReadNotDetermined`).

## Model

| member | source | states |
|---|---|---|
| `Schema.ToPrivacyScore` | drizzle/schema.ts:77-87 | an inserted score keeps its user and total; each sub-score is stored as given, or as 0 when omitted, independently of the others; an omitted time is stored as now |
| `Schema.ToAlert` | drizzle/schema.ts:95-112 | an inserted alert keeps its user, type, title and description; its severity is as given, else `medium`; `isResolved` is as given, else 0; its resolution time is as given, else none; it is created at the given time, else now |
| `Schema.ToRecommendation` | drizzle/schema.ts:118-135 | an inserted recommendation keeps its user, type, title, description and link; its priority is as given, else 0; `isCompleted` is as given, else 0; its completion time is as given, else none |
| `Schema.ToPrivacyStreak` | drizzle/schema.ts:144-151 | an inserted streak row belongs to the given user, its counters default to 0, and it is stamped now |
| `Schema.ToPasswordEntry` | drizzle/schema.ts:178-188 | an inserted entry keeps its site, username and ciphertext; its strength is as given, else `fair`; `isBreached` is as given, else 0; it is modified and created at the given times, else now |
| `Schema.ToEmailAlias` | drizzle/schema.ts:196-203 | an inserted alias keeps its alias and forwarding addresses; `isActive` is as given, else 1 |
| `Schema.ToQuarantinedEmail` | drizzle/schema.ts:208-217 | an inserted quarantined mail keeps its sender, subject, threat type and content; `isReviewed` is as given, else 0 |
| `Schema.ToVpnSession` | drizzle/schema.ts:225-233 | an inserted session keeps its location and disconnection time; `isActive` is as given, else 1; the data used is as given, else 0 MB; it connected at the given time, else now |
| `Schema.ToTrackerBlock` | drizzle/schema.ts:238-245 | an inserted tracker row keeps its domain and type; its block count is as given, else 1; it was last blocked at the given time, else now |
| `Schema.InsertKeepsKeys` | drizzle/schema.ts:13 | inserting a row that takes the next auto-increment id keeps the primary key distinct and below the counter |
| `Schema.FilterKeepsKeys` | drizzle/schema.ts:13 | deleting rows keeps the primary key distinct and below the counter |
| `UserUpsert.Assemble` | server/db.ts:56-93 | supplied text fields (including an explicit null) go to both the insert row and the update set, and omitted ones to neither; a supplied role wins, else the owner gets `admin`; the insert row always has a sign-in time; the update set is never empty and falls back to `lastSignedIn = now` exactly when nothing else is assigned |
| `UserUpsert.UpsertUser` | server/db.ts:45-102 | a missing or empty openId fails whatever the store; an absent store is a silent no-op; otherwise only the users table changes |
| `UserUpsert.UpsertKeepsValid` | server/db.ts:95-97 | an upsert keeps every declared key of the store, including unique `openId` |
| `UserUpsert.UpsertLeavesOneRow` | drizzle/schema.ts:15 | after an upsert exactly one row holds the openId |
| `UserUpsert.UpsertExistingRow` | server/db.ts:57-97 | upserting a known openId rewrites that row only: supplied fields overwrite (null clears), omitted fields stay, id and creation time stay, other rows are untouched; an omitted `lastSignedIn` becomes now only when nothing else is assigned and otherwise keeps its stored value, including for the owner without a role |
| `UserUpsert.UpsertNewRow` | server/db.ts:57-97 | upserting a new openId appends one row: absent text is NULL, the role is supplied-else-owner-admin-else-`user`, and the sign-in time is the supplied one or now |
| `UserUpsert.UpsertRole` | server/db.ts:79-85 | the stored role is the supplied one even for the owner, and `admin` for the owner when none is supplied, on either path |
| `UserUpsert.UpsertTwice` | server/db.ts:95-97 | two upserts of one openId leave one row carrying the second call's supplied fields: a value is stored, a null clears name, email or login method, and without a role the owner is `admin` |
| `Data.GetUserByOpenId` | server/db.ts:104-114 | answers some user with that openId, and nothing exactly when none exists or the store is absent |
| `Data.UserLookupDetermined` | drizzle/schema.ts:15 | because openId is unique, every correct answer to the lookup is the same row |
| `Data.GetPrivacyScore` | server/db.ts:119-131 | answers a score row of the user whose recording time no other row of the user exceeds, and null when there is none |
| `Data.CreatePrivacyScore` | server/db.ts:133-137 | appends the defaulted row to the scores table only; fails without a store |
| `Data.GetPrivacyMetrics` | server/db.ts:139-149 | answers the first `limit` rows of a newest-first listing of the user's metrics |
| `Data.MetricsBounded` | server/db.ts:139-149 | the metrics answer has at most `limit` rows, all the user's, newest first |
| `Data.DefaultMetricsAtMostHundred` | server/db.ts:139 | called without a limit, the metrics answer has at most 100 rows |
| `Data.GetActiveAlerts` | server/db.ts:154-163 | answers exactly the user's unresolved alerts, newest first |
| `Data.CreateAlert` | server/db.ts:165-169 | appends the defaulted row to the alerts table only, keeping its keys; fails without a store |
| `Data.CreatedAlertIsActive` | drizzle/schema.ts:110 | an alert created without a resolution flag appears in every correct answer to its owner's active alerts |
| `Data.ResolveAlert` | server/db.ts:171-178 | changes only the alerts table, keeps its keys and counter; fails without a store |
| `Data.ResolveAlertEffect` | server/db.ts:171-178 | the row with that id, whoever owns it, becomes resolved at now with every other column as before; no row is removed and every other row is unchanged |
| `Data.ResolvedAlertNotActive` | server/db.ts:154-178 | after resolving, the alert is in no user's active-alert answer, and every other active alert still is |
| `Data.GetRecommendations` | server/db.ts:180-189 | answers exactly the user's open recommendations, highest priority first |
| `Data.CreateRecommendation` | server/db.ts:191-195 | appends the defaulted row to the recommendations table only; fails without a store |
| `Data.CompleteRecommendation` | server/db.ts:197-204 | changes only the recommendations table, keeping its keys; fails without a store |
| `Data.CompleteRecommendationEffect` | server/db.ts:197-204 | the row with that id, whoever owns it, becomes completed at now with every other column as before; no row is removed and every other row is unchanged |
| `Data.CompletedRecommendationNotOpen` | server/db.ts:180-204 | after completing, the recommendation is in no user's open list, and every other open one still is |
| `Data.GetPrivacyStreak` | server/db.ts:209-220 | answers some streak row of the user, and null exactly when there is none |
| `Data.UpdatePrivacyStreak` | server/db.ts:222-231 | changes only the streaks table and keeps its keys; fails without a store |
| `Data.StreakUpdateAppends` | server/db.ts:222-231 | every streak update appends a row and the user's row count grows by one: the duplicate-key branch is never taken |
| `Data.StreakReadNotDetermined` | server/db.ts:209-220 | after two updates for one user, two different rows are each a correct streak answer |
| `Data.GetUserBadges` | server/db.ts:233-242 | answers exactly the user's badges, most recently earned first |
| `Data.AwardBadge` | server/db.ts:244-248 | appends a badge of that type earned now, keeping earlier badges; fails without a store |
| `Data.GetPasswordEntries` | server/db.ts:253-262 | answers exactly the user's vault entries, newest first |
| `Data.CreatePasswordEntry` | server/db.ts:264-268 | appends the defaulted entry to the vault table only; fails without a store |
| `Data.CreatedEntryDefaults` | drizzle/schema.ts:184-185 | an entry created without strength or breach flag is listed for its owner as `fair` and is not among the breached |
| `Data.CreatedBreachedEntryIsListed` | server/db.ts:264-278 | an entry created with `isBreached` 1 is in every correct breached answer for its owner; this insert is the only write of that column |
| `Data.GetBreachedPasswords` | server/db.ts:270-278 | answers exactly the user's breached entries, in any order |
| `Data.DeletePasswordEntry` | server/db.ts:462-470 | changes only the vault table, succeeds whether or not a row matched, fails without a store |
| `Data.DeletePasswordScoped` | server/db.ts:466-467 | a row survives exactly when it is not the user's row with that id; other users' rows always survive |
| `Data.GetEmailAliases` | server/db.ts:283-291 | answers exactly the user's aliases, in any order |
| `Data.CreateEmailAlias` | server/db.ts:293-297 | fails with a duplicate-key error exactly when any user already holds the address, leaving the table unchanged; otherwise appends the alias and keeps the address unique |
| `Data.GetQuarantinedEmails` | server/db.ts:302-311 | answers exactly the user's quarantined mail, newest first |
| `Data.CreateQuarantinedEmail` | server/db.ts:313-317 | appends the defaulted row to the quarantine table only; fails without a store |
| `Data.DeleteEmailAlias` | server/db.ts:449-457 | changes only the alias table, keeps addresses unique, succeeds whether or not a row matched |
| `Data.DeleteAliasScoped` | server/db.ts:453-454 | an alias survives exactly when it is not the user's alias with that id; other users' aliases always survive |
| `Data.GetActiveVpnSession` | server/db.ts:322-333 | answers some active session of the user, and null exactly when there is none |
| `Data.CreateVpnSession` | server/db.ts:335-339 | appends the defaulted session to the sessions table only; fails without a store |
| `Data.UpdateVpnStatus` | server/db.ts:415-433 | changes only the sessions table and keeps its keys; fails without a store |
| `Data.VpnOffEndsSessions` | server/db.ts:427-431 | after disconnecting, every correct active-session answer for the user is null; each of the user's active sessions becomes inactive with `disconnectedAt` now; the user's inactive sessions and other users' sessions are unchanged |
| `Data.VpnOnStartsSession` | server/db.ts:419-426 | connecting appends one active `US-East` session with no data used, connected now, and leaves existing sessions alone |
| `Data.GetTrackerBlockStats` | server/db.ts:344-353 | answers exactly the user's tracker rows, most blocked first |
| `Data.RecordTrackerBlock` | server/db.ts:355-359 | appends the defaulted row to the tracker table only; fails without a store |
| `Router.Bind` | server/routers.ts:22-155 | every protected procedure calls the data layer with the caller's own id as owner; only the four mutations write; public procedures make no call |
| `Router.Execute` | server/routers.ts:22-155 | reads leave the store unchanged; a call fails only when it writes and no store exists; declared keys are kept |
| `Router.Dispatch` | server/routers.ts:8-156 | a protected procedure without a caller is refused with the store unchanged; no request removes the store or breaks its keys |
| `Router.ReadsKeepStore` | server/routers.ts:22-155 | every procedure other than the four writing mutations leaves the store unchanged |
| `Router.MeReturnsContext` | server/routers.ts:11 | `auth.me` answers the context user, signed in or not |
| `Router.DeletePasswordOnlyOwn` | server/routers.ts:110-114 | `vault.deletePassword` cannot remove another user's entry, whatever id it is given |
| `Router.DeleteAliasOnlyOwn` | server/routers.ts:91-95 | `email.deleteAlias` cannot remove another user's alias, whatever id it is given |
| `Router.IncrementStreakWritesOne` | server/routers.ts:124-126 | `incrementStreak` appends a caller's row with current streak 1 and check-in now, whatever came before |
| `Router.GetMetricsAtMostThirty` | server/routers.ts:25-27 | `privacy.getMetrics` answers exactly the data layer's 30-row metrics answer for the caller: at most 30 of the caller's metrics, newest first |
| `Router.ExecuteAnswers` | server/routers.ts:22-131 | each read call answers exactly what its data-layer function returns for the call's user id |
| `Router.ProtectedRunsBound` | server/routers.ts:21-155 | a protected procedure with a signed-in caller runs the data-layer call bound to the caller's own id |
| `Router.ReadsAnswerCaller` | server/routers.ts:22-131 | every protected read answers what its data-layer function returns for the signed-in caller's id, whatever the store holds for other users |
| `Router.VaultAndAliasReadsOwnOnly` | server/routers.ts:80-101 | `vault.getPasswords` and `email.getAliases` answer exactly the caller's rows: none of another user, and every one of the caller |
| `Router.DeleteAliasRuns` | server/routers.ts:91-95 | `email.deleteAlias` runs the alias deletion for the caller's id: success with its new store, or its error with the store unchanged |
| `Router.DeletePasswordRuns` | server/routers.ts:110-114 | `vault.deletePassword` runs the entry deletion for the caller's id: success with its new store, or its error with the store unchanged |
| `Router.IncrementStreakRuns` | server/routers.ts:124-126 | `gamification.incrementStreak` writes the caller's streak with 1 day and the call's time as last check-in, or answers the write's error with the store unchanged |
| `Router.ToggleVpnForwards` | server/routers.ts:69-73 | `vpn.toggleVpn` hands its flag unchanged to the VPN update for the caller |
| `Router.UpdatePreferencesPersistsNothing` | server/routers.ts:129-155 | updating preferences changes no state, and a later read still answers the fixed defaults |
| `Dashboard.DisplayedScore` | client/src/pages/Dashboard.tsx:26 | the latest score is shown, and 85 when there is none |
| `Dashboard.BandOf` | client/src/pages/Dashboard.tsx:68 | the bands partition the scores at 90 and 70 |
| `Dashboard.StyleFollowsBand` | client/src/pages/Dashboard.tsx:27-28 | text colour, background and caption always come from the same band: green/Excellent, yellow/Good, red/Needs Attention |
| `Dashboard.NoScoreShowsGood` | client/src/pages/Dashboard.tsx:26-28 | a user with no score sees 85 in the middle band |
| `Dashboard.ShownAlerts` | client/src/pages/Dashboard.tsx:93-97 | at most three alerts are listed, the first ones in server order, none without data |
| `Dashboard.ShownAlertsAreNewestActive` | client/src/pages/Dashboard.tsx:97 | for any correct newest-first answer, the listed alerts are the user's unresolved ones and no unlisted active alert is newer than a listed one |
| `Dashboard.SeverityColor` | client/src/pages/Dashboard.tsx:99-103 | each severity gets its own colour: critical red, high orange, medium yellow, low blue |
| `Vault.StrengthPartition` | client/src/pages/VivaVault.tsx:27 | the weak-or-fair, good and strong counts add up to the number of entries |
| `Vault.VaultStats` | client/src/pages/VivaVault.tsx:130-144 | without data every count is 0; strong plus weak never exceeds the total; the rest are exactly the good entries |
| `Vault.BannerMatchesCount` | client/src/pages/VivaVault.tsx:47 | the breach banner shows exactly when the compromised count is positive |
| `Vault.BannerMeansBreach` | client/src/pages/VivaVault.tsx:47 | the banner shows exactly when the store holds a breached entry of the user, and the count is how many |
| `Vault.ListedEntries` | client/src/pages/VivaVault.tsx:86 | at most eight entries are listed, the first ones in server order |
| `Vault.StatusOf` | client/src/pages/VivaVault.tsx:95-108 | a breached entry shows "Compromised" instead of its strength; any other shows its strength |
| `Vault.ListedBreachedShowCompromised` | client/src/pages/VivaVault.tsx:86-99 | for any correct newest-first answer, every listed entry is the user's, no unlisted entry is newer than a listed one, and each listed entry marked breached is returned by the breached-password query and shows "Compromised" |
| `Vault.StrengthDot` | client/src/pages/VivaVault.tsx:102-106 | each strength gets its own dot colour |
| `Surf.TotalBlocked` | client/src/pages/VivaSurf.tsx:26 | the total is the summed block counts, and 0 when data is absent or empty |
| `Surf.SumPermutation` | client/src/pages/VivaSurf.tsx:26 | the total does not depend on the order of the rows |
| `Surf.TotalDetermined` | client/src/pages/VivaSurf.tsx:26 | every correct tracker-statistics answer gives the same total |
| `Surf.SumBoundsEach` | client/src/pages/VivaSurf.tsx:26 | with non-negative counts the total is at least each row's count |
| `Surf.TopTrackers` | client/src/pages/VivaSurf.tsx:133 | at most five trackers are listed, the first ones in server order |
| `Surf.TopTrackersDominate` | client/src/pages/VivaSurf.tsx:133-140 | listed trackers are the user's, no unlisted one has a higher count, and the total is at least each listed count |

The page-value functions themselves carry no contract of their own; the lemmas above state them.

- `Vault.TotalCount`, `Vault.StrongCount` and `Vault.WeakCount` (client/src/pages/VivaVault.tsx:27 and 130-144) are stated by `Vault.StrengthPartition` and `Vault.VaultStats`.
- `Vault.CompromisedCount` and `Vault.ShowBreachBanner` (client/src/pages/VivaVault.tsx:47) are stated by `Vault.BannerMatchesCount` and `Vault.BannerMeansBreach`.
- `Dashboard.ScoreColor`, `Dashboard.ScoreBackground` and `Dashboard.ScoreLabel` (client/src/pages/Dashboard.tsx:27-28) are stated by `Dashboard.StyleFollowsBand`.

## Left out

- Connection handling is not modelled: the lazy cached connection, the `DATABASE_URL` read and all console logging. These are process state and I/O. The model keeps only whether a store is present.
- A storage failure other than an absent store is not modelled, except the duplicate-key error of `createEmailAlias`. This covers a dropped connection and constraint violations such as an over-long `varchar` or an unknown enum string passed to `awardBadge`. The model has no column widths, and its badge types are an enumeration.
- The `messages` table is not modelled, because no data-access function reads or writes it.
  - `messaging.getConversations` always answers the empty list.
  - `messaging.sendMessage` is not dispatched. Its mock answer contains a random number.
- `email.createAlias` and `vault.addPassword` are not dispatched.
  - The router passes `alias`, and `site`/`password`. These are not the column names `aliasEmail`/`forwardingEmail` and `websiteUrl`/`encryptedPassword`.
  - What the insert then does depends on the MySQL SQL mode, which is outside the code.
  - The data-layer functions they call (`Data.CreateEmailAlias`, `Data.CreatePasswordEntry`) are modelled.
- The auth middleware behind protected procedures is outside the code. `Dispatch` takes the user it resolves as `ctx`.
- The system router is outside the code.
- The cookie clearing of `auth.logout` is HTTP I/O. Logout is modelled as answering success with the store unchanged.
- Explicit ids in insert inputs are not modelled. Every insert takes the next auto-increment id, and no caller in the code passes one.
- `Data.CreateEmailAlias`: addresses collide under exact string equality. The schema declares no collation, so a MySQL server with a case- and accent-insensitive default collation (such as `utf8mb4_0900_ai_ci`) also rejects an address differing only in case or accents. Collation is server configuration, outside the code.
- `Data.GetUserByOpenId`: openIds match under exact string equality, not under the server's collation, for the same reason.
- `UserUpsert.UpsertUser`: the unique `openId` is compared under exact string equality, not under the server's collation. The update path also leaves `nextId` alone, while InnoDB may spend an auto-increment value on an INSERT that turns into an update. Ids are therefore modelled as gap-free; the contracts pin a new row's id to `nextId`, which real ids need not equal (they only keep increasing).
- `Data.CreateEmailAlias`: a rejected duplicate leaves `nextId` unchanged, while InnoDB may spend an auto-increment value on it; the same gap-free simplification.
- `Data.ConnectRow`: `updateVpnStatus` also passes `dataUsed: 0`. That key names no column, so it is dropped and `dataUsedMB` takes its default 0. The model writes the default directly, with the same stored row.
- Time is an integer supplied by the caller. The `now` of one call is a single instant.
- `ON UPDATE CURRENT_TIMESTAMP` is modelled only for `users.updatedAt`. The other such columns (`privacyStreaks.updatedAt`, `passwordEntries.lastModified`) belong to rows that no function updates.
- `Surf.TotalBlocked`: JavaScript sums in double precision from the left. The model sums unbounded integers, where the order of addition does not matter.
- `Dashboard.DisplayedScore`: a query still loading and a user without a score both show 85. The model represents both as `None`.
- The pages' rendering, navigation and hooks are not modelled.
- Concurrent requests are not modelled. Every operation is one sequential transition.

=== FILE: common.dfy ===
/** Optional values: a nullable column, an absent query result, an omitted
    insert field. */
module Common {

  /** `None` stands for SQL NULL, a missing row, or a field left out. */
  datatype Option<+T> = None | Some(value: T) {
    /** JavaScript's `x ?? fallback`. */
    function OrElse(fallback: T): T {
      if Some? then value else fallback
    }
  }

  function Min(a: int, b: int): int {
    if a <= b then a else b
  }
}

=== FILE: dashboard.dfy ===
/** The values the dashboard page derives from its queries: the displayed
    privacy score and its band, the alerts it lists, and their colours. */
module Dashboard {
  import opened Common
  import opened Seqs
  import opened Schema
  import opened Data

  /** The score shown when the user has no score row (or it has not loaded). */
  const DefaultScore := 85

  /** The score shown: the latest score row's value, else 85. */
  function DisplayedScore(latest: Option<PrivacyScore>): (r: int)
    ensures latest.None? ==> r == DefaultScore
    ensures latest.Some? ==> r == latest.value.score
  {
    if latest.Some? then latest.value.score else DefaultScore
  }

  /** The three score bands, with their lower bounds 90 and 70. */
  datatype Band = Excellent | Fine | NeedsAttention

  function BandOf(score: int): (b: Band)
    ensures b == Excellent <==> 90 <= score
    ensures b == Fine <==> 70 <= score < 90
    ensures b == NeedsAttention <==> score < 70
  {
    if score >= 90 then Excellent else if score >= 70 then Fine else NeedsAttention
  }

  /** The score's text colour; the page decides it with its own comparisons. */
  function ScoreColor(score: int): string {
    if score >= 90 then "text-green-500" else if score >= 70 then "text-yellow-500" else "text-red-500"
  }

  /** The gauge background. */
  function ScoreBackground(score: int): string {
    if score >= 90 then "bg-green-500/10" else if score >= 70 then "bg-yellow-500/10" else "bg-red-500/10"
  }

  /** The caption under the gauge. */
  function ScoreLabel(score: int): string {
    if score >= 90 then "Excellent" else if score >= 70 then "Good" else "Needs Attention"
  }

  /** Each band's colour, background and caption. */
  function BandStyle(b: Band): (string, string, string) {
    match b
    case Excellent => ("text-green-500", "bg-green-500/10", "Excellent")
    case Fine => ("text-yellow-500", "bg-yellow-500/10", "Good")
    case NeedsAttention => ("text-red-500", "bg-red-500/10", "Needs Attention")
  }

  /** Colour, background and caption always come from the same band: green
      and "Excellent" from 90 up, yellow and "Good" from 70 below 90, red and
      "Needs Attention" below 70. */
  lemma StyleFollowsBand(score: int)
    ensures (ScoreColor(score), ScoreBackground(score), ScoreLabel(score)) == BandStyle(BandOf(score))
    ensures ScoreColor(score) == "text-green-500" <==> ScoreLabel(score) == "Excellent"
    ensures ScoreColor(score) == "text-yellow-500" <==> ScoreLabel(score) == "Good"
    ensures ScoreColor(score) == "text-red-500" <==> ScoreLabel(score) == "Needs Attention"
  {
  }

  /** A user with no score row sees 85, which is in the "Good" band. */
  lemma NoScoreShowsGood(s: Store, uid: int)
    requires GetPrivacyScore(s, uid).None?
    ensures DisplayedScore(GetPrivacyScore(s, uid)) == 85
    ensures BandOf(DisplayedScore(GetPrivacyScore(s, uid))) == Fine
  {
  }

  /** How many alerts the dashboard lists. */
  const ShownAlertCount: nat := 3

  /** The alerts listed: the first three in server order; none while the
      query has no data. */
  function ShownAlerts(alerts: Option<seq<Alert>>): (r: seq<Alert>)
    ensures |r| <= ShownAlertCount
    ensures alerts.None? ==> r == []
    ensures alerts.Some? ==> |r| == Min(ShownAlertCount, |alerts.value|)
    ensures alerts.Some? ==> forall i | 0 <= i < |r| :: r[i] == alerts.value[i]
  {
    if alerts.None? then [] else Take(alerts.value, ShownAlertCount)
  }

  /** Fed by any correct answer to `getActiveAlerts`, the dashboard lists
      only the user's unresolved alerts, and none of the unlisted active
      alerts is newer than a listed one. */
  lemma ShownAlertsAreNewestActive(db: Db, uid: int, all: seq<Alert>, shown: seq<Alert>)
    requires IsOrderedSelection(all, db.alerts.rows, ActiveAlertOf(uid), AlertCreatedAt)
    requires shown == ShownAlerts(Some(all))
    ensures forall a | a in shown :: a.userId == uid && a.isResolved == 0
    ensures forall a, b | a in shown && b in all[|shown|..] :: b.createdAt <= a.createdAt
  {
    OrderedSelectionMembers(all, db.alerts.rows, ActiveAlertOf(uid), AlertCreatedAt);
    PrefixDominates(all, AlertCreatedAt, |shown|);
    assert shown == all[..|shown|];
    forall a | a in shown ensures a.userId == uid && a.isResolved == 0 {
      assert a in all;
    }
  }

  /** An alert's icon colour by severity. */
  function SeverityColor(sev: Severity): (c: string)
    ensures c == "text-red-500" <==> sev == Critical
    ensures c == "text-orange-500" <==> sev == High
    ensures c == "text-yellow-500" <==> sev == Medium
    ensures c == "text-blue-500" <==> sev == Low
  {
    match sev
    case Critical => "text-red-500"
    case High => "text-orange-500"
    case Medium => "text-yellow-500"
    case Low => "text-blue-500"
  }
}

=== FILE: data.dfy ===
/** The data-access functions of server/db.ts other than `upsertUser`, as
    queries and transitions over the store. A read on an absent store yields
    an empty list or no row; a write on an absent store throws. Each read is
    specified by the query form it issues (see Seqs): the function returns
    one correct answer, and the lemmas hold of every correct answer. */
module Data {
  import opened Common
  import opened Seqs
  import opened Schema

  // ------------------------------------------------------- WHERE clauses

  function OpenIdIs(openId: string): User -> bool { (u: User) => u.openId == openId }
  function ScoreOf(uid: int): PrivacyScore -> bool { (x: PrivacyScore) => x.userId == uid }
  function MetricOf(uid: int): PrivacyMetric -> bool { (x: PrivacyMetric) => x.userId == uid }
  function ActiveAlertOf(uid: int): Alert -> bool { (a: Alert) => a.userId == uid && a.isResolved == 0 }
  function OpenRecommendationOf(uid: int): Recommendation -> bool {
    (x: Recommendation) => x.userId == uid && x.isCompleted == 0
  }
  function StreakOf(uid: int): PrivacyStreak -> bool { (x: PrivacyStreak) => x.userId == uid }
  function BadgeOf(uid: int): Badge -> bool { (x: Badge) => x.userId == uid }
  function PasswordOf(uid: int): PasswordEntry -> bool { (x: PasswordEntry) => x.userId == uid }
  function BreachedPasswordOf(uid: int): PasswordEntry -> bool {
    (x: PasswordEntry) => x.userId == uid && x.isBreached == 1
  }
  function AliasOf(uid: int): EmailAlias -> bool { (x: EmailAlias) => x.userId == uid }
  function QuarantinedOf(uid: int): QuarantinedEmail -> bool { (x: QuarantinedEmail) => x.userId == uid }
  function ActiveVpnOf(uid: int): VpnSession -> bool { (x: VpnSession) => x.userId == uid && x.isActive == 1 }
  function TrackerOf(uid: int): TrackerBlock -> bool { (x: TrackerBlock) => x.userId == uid }

  // ----------------------------------------------------- ORDER BY … DESC keys

  function ScoreRecordedAt(x: PrivacyScore): int { x.recordedAt }
  function MetricRecordedAt(x: PrivacyMetric): int { x.recordedAt }
  function AlertCreatedAt(x: Alert): int { x.createdAt }
  function RecommendationPriority(x: Recommendation): int { x.priority }
  function BadgeEarnedAt(x: Badge): int { x.earnedAt }
  function PasswordCreatedAt(x: PasswordEntry): int { x.createdAt }
  function QuarantinedCreatedAt(x: QuarantinedEmail): int { x.createdAt }
  function TrackerBlockCount(x: TrackerBlock): int { x.blockCount }

  /** The row limit `getPrivacyMetrics` uses when the caller gives none. */
  const DefaultMetricsLimit: nat := 100

  // --------------------------------------------------------------- users

  /** `getUserByOpenId`: some row with the openId, if any. */
  function GetUserByOpenId(s: Store, openId: string): (r: Option<User>)
    ensures s.None? ==> r.None?
    ensures s.Some? ==> IsAnyMatch(r, s.value.users.rows, OpenIdIs(openId))
  {
    if s.None? then None else FirstMatch(s.value.users.rows, OpenIdIs(openId))
  }

  /** Because `openId` is unique, the lookup is determined: every correct
      answer is the one row holding the openId. */
  lemma UserLookupDetermined(db: Db, openId: string, r: Option<User>)
    requires db.Valid() && IsAnyMatch(r, db.users.rows, OpenIdIs(openId))
    ensures r == GetUserByOpenId(Some(db), openId)
  {
    var g := GetUserByOpenId(Some(db), openId);
    if r.Some? {
      var rows := db.users.rows;
      var i :| 0 <= i < |rows| && rows[i] == r.value;
      var j :| 0 <= j < |rows| && rows[j] == g.value;
      assert UserOpenId(rows[i]) == UserOpenId(rows[j]);
    }
  }

  // ------------------------------------------------------ score and metrics

  /** `getPrivacyScore`: the caller's most recently recorded score. */
  function GetPrivacyScore(s: Store, uid: int): (r: Option<PrivacyScore>)
    ensures s.None? ==> r.None?
    ensures s.Some? ==> IsLatestMatch(r, s.value.privacyScores.rows, ScoreOf(uid), ScoreRecordedAt)
  {
    if s.None? then None else LatestMatch(s.value.privacyScores.rows, ScoreOf(uid), ScoreRecordedAt)
  }

  /** `createPrivacyScore`: appends one row; sub-scores default to 0. */
  function CreatePrivacyScore(s: Store, n: NewPrivacyScore, now: Timestamp): (r: Outcome<Store>)
    ensures r.Err? <==> s.None?
    ensures r.Err? ==> r.error == StorageUnavailable
    ensures r.Ok? ==> r.value.Some? && r.value.value == s.value.(privacyScores := r.value.value.privacyScores)
    ensures r.Ok? ==> r.value.value.privacyScores.rows == s.value.privacyScores.rows + [ToPrivacyScore(n, s.value.privacyScores.nextId, now)]
    ensures r.Ok? && s.value.Valid() ==> r.value.value.Valid()
  {
    if s.None? then Err(StorageUnavailable)
    else
      var t := s.value.privacyScores;
      var row := ToPrivacyScore(n, t.nextId, now);
      InsertKeepsKeys(t, row, ScoreKey);
      Ok(Some(s.value.(privacyScores := Insert(t, row))))
  }

  /** `getPrivacyMetrics`: the caller's newest `limit` metric rows. */
  function GetPrivacyMetrics(s: Store, uid: int, limit: nat := DefaultMetricsLimit): (r: seq<PrivacyMetric>)
    ensures s.None? ==> r == []
    ensures s.Some? ==> IsLimitedSelection(r, s.value.privacyMetrics.rows, MetricOf(uid), MetricRecordedAt, limit)
  {
    if s.None? then [] else LimitedSelect(s.value.privacyMetrics.rows, MetricOf(uid), MetricRecordedAt, limit)
  }

  /** `getPrivacyMetrics` answers at most `limit` rows, all the caller's,
      newest first. */
  lemma MetricsBounded(s: Store, uid: int, limit: nat)
    ensures var r := GetPrivacyMetrics(s, uid, limit);
      && |r| <= limit
      && (forall x | x in r :: x.userId == uid)
      && (forall i, j | 0 <= i < j < |r| :: r[i].recordedAt >= r[j].recordedAt)
  {
    var r := GetPrivacyMetrics(s, uid, limit);
    if s.Some? {
      LimitedSelectionFacts(r, s.value.privacyMetrics.rows, MetricOf(uid), MetricRecordedAt, limit);
      assert forall i, j | 0 <= i < j < |r| :: MetricRecordedAt(r[i]) >= MetricRecordedAt(r[j]);
    }
  }

  /** Called without a limit, `getPrivacyMetrics` answers at most 100 rows. */
  lemma DefaultMetricsAtMostHundred(s: Store, uid: int)
    ensures |GetPrivacyMetrics(s, uid)| <= 100
  {
    MetricsBounded(s, uid, DefaultMetricsLimit);
  }

  // ---------------------------------------------------------------- alerts

  /** `getActiveAlerts`: the caller's unresolved alerts, newest first. */
  function GetActiveAlerts(s: Store, uid: int): (r: seq<Alert>)
    ensures s.None? ==> r == []
    ensures s.Some? ==> IsOrderedSelection(r, s.value.alerts.rows, ActiveAlertOf(uid), AlertCreatedAt)
  {
    if s.None? then [] else OrderedSelect(s.value.alerts.rows, ActiveAlertOf(uid), AlertCreatedAt)
  }

  /** `createAlert`: appends one row. */
  function CreateAlert(s: Store, n: NewAlert, now: Timestamp): (r: Outcome<Store>)
    ensures r.Err? <==> s.None?
    ensures r.Err? ==> r.error == StorageUnavailable
    ensures r.Ok? ==> r.value.Some? && r.value.value == s.value.(alerts := r.value.value.alerts)
    ensures r.Ok? ==> r.value.value.alerts.rows == s.value.alerts.rows + [ToAlert(n, s.value.alerts.nextId, now)]
    ensures r.Ok? && s.value.Valid() ==> r.value.value.Valid()
  {
    if s.None? then Err(StorageUnavailable)
    else
      var t := s.value.alerts;
      var row := ToAlert(n, t.nextId, now);
      InsertKeepsKeys(t, row, AlertKey);
      Ok(Some(s.value.(alerts := Insert(t, row))))
  }

  /** An alert created without an explicit `isResolved` is active: it is in
      every correct answer to its owner's `getActiveAlerts`. */
  lemma CreatedAlertIsActive(db: Db, n: NewAlert, now: Timestamp, r: seq<Alert>)
    requires n.isResolved.None?
    requires IsOrderedSelection(r, CreateAlert(Some(db), n, now).value.value.alerts.rows, ActiveAlertOf(n.userId), AlertCreatedAt)
    ensures ToAlert(n, db.alerts.nextId, now) in r
  {
    var row := ToAlert(n, db.alerts.nextId, now);
    var rows := CreateAlert(Some(db), n, now).value.value.alerts.rows;
    assert rows == db.alerts.rows + [row];
    OrderedSelectionMembers(r, rows, ActiveAlertOf(n.userId), AlertCreatedAt);
  }

  /** The alerts table after `resolveAlert(alertId)` on an available store. */
  function MarkResolved(rows: seq<Alert>, alertId: int, now: Timestamp): seq<Alert> {
    seq(|rows|, i requires 0 <= i < |rows| =>
      if rows[i].id == alertId then rows[i].(isResolved := 1, resolvedAt := Some(now)) else rows[i])
  }

  /** `resolveAlert`: marks the row with that id resolved, whoever owns it. */
  function ResolveAlert(s: Store, alertId: int, now: Timestamp): (r: Outcome<Store>)
    ensures r.Err? <==> s.None?
    ensures r.Err? ==> r.error == StorageUnavailable
    ensures r.Ok? ==> r.value.Some? && r.value.value == s.value.(alerts := r.value.value.alerts)
    ensures r.Ok? ==> r.value.value.alerts.nextId == s.value.alerts.nextId
    ensures r.Ok? && s.value.Valid() ==> r.value.value.Valid()
  {
    if s.None? then Err(StorageUnavailable)
    else
      var t := s.value.alerts;
      var rows := MarkResolved(t.rows, alertId, now);
      assert forall i | 0 <= i < |rows| :: AlertKey(rows[i]) == AlertKey(t.rows[i]);
      Ok(Some(s.value.(alerts := t.(rows := rows))))
  }

  /** After `resolveAlert(alertId)` the row with that id — of any owner —
      has `isResolved` 1 and `resolvedAt` now; no row is removed and every
      other row is unchanged. */
  lemma ResolveAlertEffect(db: Db, alertId: int, now: Timestamp)
    ensures var before := db.alerts.rows;
      var after := ResolveAlert(Some(db), alertId, now).value.value.alerts.rows;
      && |after| == |before|
      && (forall i | 0 <= i < |before| && before[i].id == alertId ::
            after[i] == before[i].(isResolved := 1, resolvedAt := Some(now)))
      && (forall i | 0 <= i < |before| && before[i].id != alertId :: after[i] == before[i])
  {
  }

  /** A resolved alert leaves every correct answer to `getActiveAlerts`, for
      every user; the other active alerts stay. */
  lemma ResolvedAlertNotActive(db: Db, alertId: int, now: Timestamp, uid: int, r: seq<Alert>)
    requires IsOrderedSelection(r, ResolveAlert(Some(db), alertId, now).value.value.alerts.rows, ActiveAlertOf(uid), AlertCreatedAt)
    ensures forall x | x in r :: x.id != alertId
    ensures forall x :: x in r <==> x in db.alerts.rows && ActiveAlertOf(uid)(x) && x.id != alertId
  {
    var before := db.alerts.rows;
    var after := ResolveAlert(Some(db), alertId, now).value.value.alerts.rows;
    OrderedSelectionMembers(r, after, ActiveAlertOf(uid), AlertCreatedAt);
    forall x ensures x in after && ActiveAlertOf(uid)(x) <==> x in before && ActiveAlertOf(uid)(x) && x.id != alertId {
      if x in after && ActiveAlertOf(uid)(x) {
        var i :| 0 <= i < |after| && after[i] == x;
        assert before[i].id != alertId;
      }
      if x in before && ActiveAlertOf(uid)(x) && x.id != alertId {
        var i :| 0 <= i < |before| && before[i] == x;
        assert after[i] == x;
      }
    }
  }

  // ------------------------------------------------------- recommendations

  /** `getRecommendations`: the caller's open recommendations, highest
      priority first. */
  function GetRecommendations(s: Store, uid: int): (r: seq<Recommendation>)
    ensures s.None? ==> r == []
    ensures s.Some? ==> IsOrderedSelection(r, s.value.recommendations.rows, OpenRecommendationOf(uid), RecommendationPriority)
  {
    if s.None? then [] else OrderedSelect(s.value.recommendations.rows, OpenRecommendationOf(uid), RecommendationPriority)
  }

  /** `createRecommendation`: appends one row. */
  function CreateRecommendation(s: Store, n: NewRecommendation, now: Timestamp): (r: Outcome<Store>)
    ensures r.Err? <==> s.None?
    ensures r.Err? ==> r.error == StorageUnavailable
    ensures r.Ok? ==> r.value.Some? && r.value.value == s.value.(recommendations := r.value.value.recommendations)
    ensures r.Ok? ==> r.value.value.recommendations.rows == s.value.recommendations.rows + [ToRecommendation(n, s.value.recommendations.nextId, now)]
    ensures r.Ok? && s.value.Valid() ==> r.value.value.Valid()
  {
    if s.None? then Err(StorageUnavailable)
    else
      var t := s.value.recommendations;
      var row := ToRecommendation(n, t.nextId, now);
      InsertKeepsKeys(t, row, RecommendationKey);
      Ok(Some(s.value.(recommendations := Insert(t, row))))
  }

  /** The recommendations table after `completeRecommendation(recId)`. */
  function MarkCompleted(rows: seq<Recommendation>, recId: int, now: Timestamp): seq<Recommendation> {
    seq(|rows|, i requires 0 <= i < |rows| =>
      if rows[i].id == recId then rows[i].(isCompleted := 1, completedAt := Some(now)) else rows[i])
  }

  /** `completeRecommendation`: marks the row with that id completed,
      whoever owns it. */
  function CompleteRecommendation(s: Store, recId: int, now: Timestamp): (r: Outcome<Store>)
    ensures r.Err? <==> s.None?
    ensures r.Err? ==> r.error == StorageUnavailable
    ensures r.Ok? ==> r.value.Some? && r.value.value == s.value.(recommendations := r.value.value.recommendations)
    ensures r.Ok? ==> r.value.value.recommendations.nextId == s.value.recommendations.nextId
    ensures r.Ok? && s.value.Valid() ==> r.value.value.Valid()
  {
    if s.None? then Err(StorageUnavailable)
    else
      var t := s.value.recommendations;
      var rows := MarkCompleted(t.rows, recId, now);
      assert forall i | 0 <= i < |rows| :: RecommendationKey(rows[i]) == RecommendationKey(t.rows[i]);
      Ok(Some(s.value.(recommendations := t.(rows := rows))))
  }

  /** After `completeRecommendation(recId)` the row with that id — of any
      owner — has `isCompleted` 1 and `completedAt` now, its other columns
      as before; no row is removed and every other row is unchanged. */
  lemma CompleteRecommendationEffect(db: Db, recId: int, now: Timestamp)
    ensures var before := db.recommendations.rows;
      var after := CompleteRecommendation(Some(db), recId, now).value.value.recommendations.rows;
      && |after| == |before|
      && (forall i | 0 <= i < |before| && before[i].id == recId ::
            after[i] == before[i].(isCompleted := 1, completedAt := Some(now)))
      && (forall i | 0 <= i < |before| && before[i].id != recId :: after[i] == before[i])
  {
  }

  /** A completed recommendation leaves every correct answer to
      `getRecommendations`, for every user; the other open ones stay. */
  lemma CompletedRecommendationNotOpen(db: Db, recId: int, now: Timestamp, uid: int, r: seq<Recommendation>)
    requires IsOrderedSelection(r, CompleteRecommendation(Some(db), recId, now).value.value.recommendations.rows,
                                OpenRecommendationOf(uid), RecommendationPriority)
    ensures forall x | x in r :: x.id != recId
    ensures forall x :: x in r <==> x in db.recommendations.rows && OpenRecommendationOf(uid)(x) && x.id != recId
  {
    var before := db.recommendations.rows;
    var after := CompleteRecommendation(Some(db), recId, now).value.value.recommendations.rows;
    OrderedSelectionMembers(r, after, OpenRecommendationOf(uid), RecommendationPriority);
    forall x ensures x in after && OpenRecommendationOf(uid)(x) <==> x in before && OpenRecommendationOf(uid)(x) && x.id != recId {
      if x in after && OpenRecommendationOf(uid)(x) {
        var i :| 0 <= i < |after| && after[i] == x;
        assert before[i].id != recId;
      }
      if x in before && OpenRecommendationOf(uid)(x) && x.id != recId {
        var i :| 0 <= i < |before| && before[i] == x;
        assert after[i] == x;
      }
    }
  }

  // ---------------------------------------------------------- gamification

  /** `getPrivacyStreak`: some streak row of the caller (LIMIT 1, no order). */
  function GetPrivacyStreak(s: Store, uid: int): (r: Option<PrivacyStreak>)
    ensures s.None? ==> r.None?
    ensures s.Some? ==> IsAnyMatch(r, s.value.privacyStreaks.rows, StreakOf(uid))
  {
    if s.None? then None else FirstMatch(s.value.privacyStreaks.rows, StreakOf(uid))
  }

  /** `updatePrivacyStreak`: an INSERT … ON DUPLICATE KEY UPDATE whose only
      unique key is the auto-increment id, so it always inserts. */
  function UpdatePrivacyStreak(s: Store, uid: int, streak: StreakInput, now: Timestamp): (r: Outcome<Store>)
    ensures r.Err? <==> s.None?
    ensures r.Err? ==> r.error == StorageUnavailable
    ensures r.Ok? ==> r.value.Some? && r.value.value == s.value.(privacyStreaks := r.value.value.privacyStreaks)
    ensures r.Ok? && s.value.Valid() ==> r.value.value.Valid()
  {
    if s.None? then Err(StorageUnavailable)
    else
      var t := s.value.privacyStreaks;
      var row := ToPrivacyStreak(uid, streak, t.nextId, now);
      InsertKeepsKeys(t, row, StreakKey);
      Ok(Some(s.value.(privacyStreaks := Insert(t, row))))
  }

  /** Every `updatePrivacyStreak` adds a row for the user and keeps the
      user's earlier rows: the duplicate-key update never happens. */
  lemma StreakUpdateAppends(db: Db, uid: int, streak: StreakInput, now: Timestamp)
    ensures var before := db.privacyStreaks.rows;
      var after := UpdatePrivacyStreak(Some(db), uid, streak, now).value.value.privacyStreaks.rows;
      && after == before + [ToPrivacyStreak(uid, streak, db.privacyStreaks.nextId, now)]
      && |Filter(after, StreakOf(uid))| == |Filter(before, StreakOf(uid))| + 1
  {
    var before := db.privacyStreaks.rows;
    FilterAppend(before, ToPrivacyStreak(uid, streak, db.privacyStreaks.nextId, now), StreakOf(uid));
  }

  /** Two streak updates for one user leave two rows with different ids, and
      `getPrivacyStreak` may answer with either: the answer is not determined. */
  lemma StreakReadNotDetermined(db: Db, uid: int, s1: StreakInput, s2: StreakInput, t1: Timestamp, t2: Timestamp)
    requires db.Valid()
    ensures var db1 := UpdatePrivacyStreak(Some(db), uid, s1, t1).value.value;
      var db2 := UpdatePrivacyStreak(Some(db1), uid, s2, t2).value.value;
      var a := ToPrivacyStreak(uid, s1, db.privacyStreaks.nextId, t1);
      var b := ToPrivacyStreak(uid, s2, db1.privacyStreaks.nextId, t2);
      && a.id != b.id
      && IsAnyMatch(Some(a), db2.privacyStreaks.rows, StreakOf(uid))
      && IsAnyMatch(Some(b), db2.privacyStreaks.rows, StreakOf(uid))
  {
    var db1 := UpdatePrivacyStreak(Some(db), uid, s1, t1).value.value;
    var db2 := UpdatePrivacyStreak(Some(db1), uid, s2, t2).value.value;
    var a := ToPrivacyStreak(uid, s1, db.privacyStreaks.nextId, t1);
    var b := ToPrivacyStreak(uid, s2, db1.privacyStreaks.nextId, t2);
    assert db2.privacyStreaks.rows == db.privacyStreaks.rows + [a] + [b];
    assert a in db2.privacyStreaks.rows && b in db2.privacyStreaks.rows;
  }

  /** `getUserBadges`: the caller's badges, most recently earned first. */
  function GetUserBadges(s: Store, uid: int): (r: seq<Badge>)
    ensures s.None? ==> r == []
    ensures s.Some? ==> IsOrderedSelection(r, s.value.badges.rows, BadgeOf(uid), BadgeEarnedAt)
  {
    if s.None? then [] else OrderedSelect(s.value.badges.rows, BadgeOf(uid), BadgeEarnedAt)
  }

  /** `awardBadge`: appends a badge earned now; badges are never removed. */
  function AwardBadge(s: Store, uid: int, badgeType: BadgeType, now: Timestamp): (r: Outcome<Store>)
    ensures r.Err? <==> s.None?
    ensures r.Err? ==> r.error == StorageUnavailable
    ensures r.Ok? ==> r.value.Some? && r.value.value == s.value.(badges := r.value.value.badges)
    ensures r.Ok? ==> r.value.value.badges.rows == s.value.badges.rows + [Badge(s.value.badges.nextId, uid, badgeType, now)]
    ensures r.Ok? && s.value.Valid() ==> r.value.value.Valid()
  {
    if s.None? then Err(StorageUnavailable)
    else
      var t := s.value.badges;
      var row := Badge(t.nextId, uid, badgeType, now);
      InsertKeepsKeys(t, row, BadgeKey);
      Ok(Some(s.value.(badges := Insert(t, row))))
  }

  // -------------------------------------------------------- password vault

  /** `getPasswordEntries`: the caller's entries, newest first. */
  function GetPasswordEntries(s: Store, uid: int): (r: seq<PasswordEntry>)
    ensures s.None? ==> r == []
    ensures s.Some? ==> IsOrderedSelection(r, s.value.passwordEntries.rows, PasswordOf(uid), PasswordCreatedAt)
  {
    if s.None? then [] else OrderedSelect(s.value.passwordEntries.rows, PasswordOf(uid), PasswordCreatedAt)
  }

  /** `createPasswordEntry`: appends one row. */
  function CreatePasswordEntry(s: Store, n: NewPasswordEntry, now: Timestamp): (r: Outcome<Store>)
    ensures r.Err? <==> s.None?
    ensures r.Err? ==> r.error == StorageUnavailable
    ensures r.Ok? ==> r.value.Some? && r.value.value == s.value.(passwordEntries := r.value.value.passwordEntries)
    ensures r.Ok? ==> r.value.value.passwordEntries.rows == s.value.passwordEntries.rows + [ToPasswordEntry(n, s.value.passwordEntries.nextId, now)]
    ensures r.Ok? && s.value.Valid() ==> r.value.value.Valid()
  {
    if s.None? then Err(StorageUnavailable)
    else
      var t := s.value.passwordEntries;
      var row := ToPasswordEntry(n, t.nextId, now);
      InsertKeepsKeys(t, row, PasswordKey);
      Ok(Some(s.value.(passwordEntries := Insert(t, row))))
  }

  /** An entry created with neither strength nor breach flag is listed for
      its owner as a `fair`, unbreached entry and is not among the breached. */
  lemma CreatedEntryDefaults(db: Db, n: NewPasswordEntry, now: Timestamp, all: seq<PasswordEntry>, breached: seq<PasswordEntry>)
    requires n.passwordStrength.None? && n.isBreached.None?
    requires var rows := CreatePasswordEntry(Some(db), n, now).value.value.passwordEntries.rows;
      && IsOrderedSelection(all, rows, PasswordOf(n.userId), PasswordCreatedAt)
      && IsUnorderedSelection(breached, rows, BreachedPasswordOf(n.userId))
    ensures var row := ToPasswordEntry(n, db.passwordEntries.nextId, now);
      row in all && row !in breached && row.passwordStrength == Fair && row.isBreached == 0
  {
    var row := ToPasswordEntry(n, db.passwordEntries.nextId, now);
    var rows := CreatePasswordEntry(Some(db), n, now).value.value.passwordEntries.rows;
    assert rows == db.passwordEntries.rows + [row];
    OrderedSelectionMembers(all, rows, PasswordOf(n.userId), PasswordCreatedAt);
    assert row !in Filter(rows, BreachedPasswordOf(n.userId));
    assert row !in multiset(breached);
  }

  /** An entry created as breached is in every correct breached answer for its
      owner: `createPasswordEntry` is the only write of `isBreached`, so this
      is how a breached entry comes to exist. */
  lemma CreatedBreachedEntryIsListed(db: Db, n: NewPasswordEntry, now: Timestamp, breached: seq<PasswordEntry>)
    requires n.isBreached == Some(1)
    requires IsUnorderedSelection(breached, CreatePasswordEntry(Some(db), n, now).value.value.passwordEntries.rows,
      BreachedPasswordOf(n.userId))
    ensures var row := ToPasswordEntry(n, db.passwordEntries.nextId, now);
      row in breached && row.isBreached == 1
  {
    var row := ToPasswordEntry(n, db.passwordEntries.nextId, now);
    var rows := CreatePasswordEntry(Some(db), n, now).value.value.passwordEntries.rows;
    assert rows == db.passwordEntries.rows + [row];
    assert row in Filter(rows, BreachedPasswordOf(n.userId));
    assert row in multiset(breached);
  }

  /** `getBreachedPasswords`: the caller's breached entries, in no set order. */
  function GetBreachedPasswords(s: Store, uid: int): (r: seq<PasswordEntry>)
    ensures s.None? ==> r == []
    ensures s.Some? ==> IsUnorderedSelection(r, s.value.passwordEntries.rows, BreachedPasswordOf(uid))
  {
    if s.None? then [] else Filter(s.value.passwordEntries.rows, BreachedPasswordOf(uid))
  }

  /** Rows `deletePasswordEntry(uid, id)` keeps: all but the caller's row with that id. */
  function KeepPassword(uid: int, entryId: int): PasswordEntry -> bool {
    (x: PasswordEntry) => !(x.userId == uid && x.id == entryId)
  }

  /** `deletePasswordEntry`: deletes the row matching both owner and id;
      reports success whether or not one matched. */
  function DeletePasswordEntry(s: Store, uid: int, entryId: int): (r: Outcome<Store>)
    ensures r.Err? <==> s.None?
    ensures r.Err? ==> r.error == StorageUnavailable
    ensures r.Ok? ==> r.value.Some? && r.value.value == s.value.(passwordEntries := r.value.value.passwordEntries)
    ensures r.Ok? && s.value.Valid() ==> r.value.value.Valid()
  {
    if s.None? then Err(StorageUnavailable)
    else
      var t := s.value.passwordEntries;
      FilterKeepsKeys(t, KeepPassword(uid, entryId), PasswordKey);
      Ok(Some(s.value.(passwordEntries := t.(rows := Filter(t.rows, KeepPassword(uid, entryId))))))
  }

  /** The delete removes exactly the rows owned by `uid` with that id: a row
      of another user, or with another id, survives. */
  lemma DeletePasswordScoped(db: Db, uid: int, entryId: int)
    ensures var before := db.passwordEntries.rows;
      var after := DeletePasswordEntry(Some(db), uid, entryId).value.value.passwordEntries.rows;
      && (forall x :: x in after <==> x in before && !(x.userId == uid && x.id == entryId))
      && (forall x | x in before && x.userId != uid :: x in after)
  {
  }

  // ----------------------------------------------------------------- email

  /** `getEmailAliases`: the caller's aliases, in no set order. */
  function GetEmailAliases(s: Store, uid: int): (r: seq<EmailAlias>)
    ensures s.None? ==> r == []
    ensures s.Some? ==> IsUnorderedSelection(r, s.value.emailAliases.rows, AliasOf(uid))
  {
    if s.None? then [] else Filter(s.value.emailAliases.rows, AliasOf(uid))
  }

  predicate AliasTaken(rows: seq<EmailAlias>, address: string) {
    exists i :: 0 <= i < |rows| && rows[i].aliasEmail == address
  }

  /** `createEmailAlias`: appends one row unless the address is already taken
      by anyone, in which case the unique key rejects it and nothing changes. */
  function CreateEmailAlias(s: Store, n: NewEmailAlias, now: Timestamp): (r: Outcome<Store>)
    ensures s.None? ==> r == Err(StorageUnavailable)
    ensures s.Some? ==> (r.Err? <==> AliasTaken(s.value.emailAliases.rows, n.aliasEmail))
    ensures r.Err? && s.Some? ==> r.error == DuplicateEntry
    ensures r.Ok? ==> r.value.Some? && r.value.value == s.value.(emailAliases := r.value.value.emailAliases)
    ensures r.Ok? ==> r.value.value.emailAliases.rows == s.value.emailAliases.rows + [ToEmailAlias(n, s.value.emailAliases.nextId, now)]
    ensures r.Ok? && s.value.Valid() ==> r.value.value.Valid()
  {
    if s.None? then Err(StorageUnavailable)
    else
      var t := s.value.emailAliases;
      if AliasTaken(t.rows, n.aliasEmail) then Err(DuplicateEntry)
      else
        var row := ToEmailAlias(n, t.nextId, now);
        InsertKeepsKeys(t, row, AliasKey);
        assert forall y | y in t.rows :: AliasAddress(y) != AliasAddress(row);
        SnocKeepsDistinct(t.rows, row, AliasAddress);
        Ok(Some(s.value.(emailAliases := Insert(t, row))))
  }

  /** `getQuarantinedEmails`: the caller's quarantined mail, newest first. */
  function GetQuarantinedEmails(s: Store, uid: int): (r: seq<QuarantinedEmail>)
    ensures s.None? ==> r == []
    ensures s.Some? ==> IsOrderedSelection(r, s.value.quarantinedEmails.rows, QuarantinedOf(uid), QuarantinedCreatedAt)
  {
    if s.None? then [] else OrderedSelect(s.value.quarantinedEmails.rows, QuarantinedOf(uid), QuarantinedCreatedAt)
  }

  /** `createQuarantinedEmail`: appends one row. */
  function CreateQuarantinedEmail(s: Store, n: NewQuarantinedEmail, now: Timestamp): (r: Outcome<Store>)
    ensures r.Err? <==> s.None?
    ensures r.Err? ==> r.error == StorageUnavailable
    ensures r.Ok? ==> r.value.Some? && r.value.value == s.value.(quarantinedEmails := r.value.value.quarantinedEmails)
    ensures r.Ok? ==> r.value.value.quarantinedEmails.rows == s.value.quarantinedEmails.rows + [ToQuarantinedEmail(n, s.value.quarantinedEmails.nextId, now)]
    ensures r.Ok? && s.value.Valid() ==> r.value.value.Valid()
  {
    if s.None? then Err(StorageUnavailable)
    else
      var t := s.value.quarantinedEmails;
      var row := ToQuarantinedEmail(n, t.nextId, now);
      InsertKeepsKeys(t, row, QuarantineKey);
      Ok(Some(s.value.(quarantinedEmails := Insert(t, row))))
  }

  /** Rows `deleteEmailAlias(uid, id)` keeps: all but the caller's row with that id. */
  function KeepAlias(uid: int, aliasId: int): EmailAlias -> bool {
    (x: EmailAlias) => !(x.userId == uid && x.id == aliasId)
  }

  /** `deleteEmailAlias`: deletes the row matching both owner and id;
      reports success whether or not one matched. */
  function DeleteEmailAlias(s: Store, uid: int, aliasId: int): (r: Outcome<Store>)
    ensures r.Err? <==> s.None?
    ensures r.Err? ==> r.error == StorageUnavailable
    ensures r.Ok? ==> r.value.Some? && r.value.value == s.value.(emailAliases := r.value.value.emailAliases)
    ensures r.Ok? && s.value.Valid() ==> r.value.value.Valid()
  {
    if s.None? then Err(StorageUnavailable)
    else
      var t := s.value.emailAliases;
      var rows := Filter(t.rows, KeepAlias(uid, aliasId));
      FilterKeepsDistinct(t.rows, KeepAlias(uid, aliasId), AliasAddress);
      FilterKeepsKeys(t, KeepAlias(uid, aliasId), AliasKey);
      Ok(Some(s.value.(emailAliases := t.(rows := rows))))
  }

  /** The delete removes exactly the rows owned by `uid` with that id: a row
      of another user, or with another id, survives. */
  lemma DeleteAliasScoped(db: Db, uid: int, aliasId: int)
    ensures var before := db.emailAliases.rows;
      var after := DeleteEmailAlias(Some(db), uid, aliasId).value.value.emailAliases.rows;
      && (forall x :: x in after <==> x in before && !(x.userId == uid && x.id == aliasId))
      && (forall x | x in before && x.userId != uid :: x in after)
  {
  }

  // ------------------------------------------------------------------- VPN

  /** `getActiveVpnSession`: some active session of the caller (LIMIT 1, no order). */
  function GetActiveVpnSession(s: Store, uid: int): (r: Option<VpnSession>)
    ensures s.None? ==> r.None?
    ensures s.Some? ==> IsAnyMatch(r, s.value.vpnSessions.rows, ActiveVpnOf(uid))
  {
    if s.None? then None else FirstMatch(s.value.vpnSessions.rows, ActiveVpnOf(uid))
  }

  /** `createVpnSession`: appends one row. */
  function CreateVpnSession(s: Store, n: NewVpnSession, now: Timestamp): (r: Outcome<Store>)
    ensures r.Err? <==> s.None?
    ensures r.Err? ==> r.error == StorageUnavailable
    ensures r.Ok? ==> r.value.Some? && r.value.value == s.value.(vpnSessions := r.value.value.vpnSessions)
    ensures r.Ok? ==> r.value.value.vpnSessions.rows == s.value.vpnSessions.rows + [ToVpnSession(n, s.value.vpnSessions.nextId, now)]
    ensures r.Ok? && s.value.Valid() ==> r.value.value.Valid()
  {
    if s.None? then Err(StorageUnavailable)
    else
      var t := s.value.vpnSessions;
      var row := ToVpnSession(n, t.nextId, now);
      InsertKeepsKeys(t, row, VpnKey);
      Ok(Some(s.value.(vpnSessions := Insert(t, row))))
  }

  /** The server location every connect records. */
  const ConnectLocation: string := "US-East"

  /** The session a connect inserts. `updateVpnStatus` also passes
      `dataUsed: 0`, a key the table does not have, so it is dropped;
      `dataUsedMB` takes its default 0. */
  function ConnectRow(uid: int, now: Timestamp): NewVpnSession {
    NewVpnSession(uid, ConnectLocation, Some(1), None, Some(now), None)
  }

  /** The sessions after a disconnect: every active session of `uid` becomes
      inactive with `disconnectedAt` now. */
  function Disconnect(rows: seq<VpnSession>, uid: int, now: Timestamp): seq<VpnSession> {
    seq(|rows|, i requires 0 <= i < |rows| =>
      if rows[i].userId == uid && rows[i].isActive == 1
      then rows[i].(isActive := 0, disconnectedAt := Some(now))
      else rows[i])
  }

  /** `updateVpnStatus`: connecting appends a session; disconnecting closes
      all of the caller's active sessions. */
  function UpdateVpnStatus(s: Store, uid: int, enabled: bool, now: Timestamp): (r: Outcome<Store>)
    ensures r.Err? <==> s.None?
    ensures r.Err? ==> r.error == StorageUnavailable
    ensures r.Ok? ==> r.value.Some? && r.value.value == s.value.(vpnSessions := r.value.value.vpnSessions)
    ensures r.Ok? && s.value.Valid() ==> r.value.value.Valid()
  {
    if s.None? then Err(StorageUnavailable)
    else if enabled then CreateVpnSession(s, ConnectRow(uid, now), now)
    else
      var t := s.value.vpnSessions;
      var rows := Disconnect(t.rows, uid, now);
      assert forall i | 0 <= i < |rows| :: VpnKey(rows[i]) == VpnKey(t.rows[i]);
      Ok(Some(s.value.(vpnSessions := t.(rows := rows))))
  }

  /** After disconnecting, the caller has no active session, so every correct
      `getActiveVpnSession` answer is null. Each of the caller's formerly
      active sessions is now inactive with `disconnectedAt` now; the caller's
      inactive sessions and other users' sessions are untouched. */
  lemma VpnOffEndsSessions(db: Db, uid: int, now: Timestamp, r: Option<VpnSession>)
    requires IsAnyMatch(r, UpdateVpnStatus(Some(db), uid, false, now).value.value.vpnSessions.rows, ActiveVpnOf(uid))
    ensures r.None?
    ensures var before := db.vpnSessions.rows;
      var after := UpdateVpnStatus(Some(db), uid, false, now).value.value.vpnSessions.rows;
      && |after| == |before|
      && (forall i | 0 <= i < |before| && before[i].userId != uid :: after[i] == before[i])
      && (forall i | 0 <= i < |before| && before[i].userId == uid && before[i].isActive == 1 ::
            after[i] == before[i].(isActive := 0, disconnectedAt := Some(now)))
      && (forall i | 0 <= i < |before| && before[i].userId == uid && before[i].isActive != 1 ::
            after[i] == before[i])
  {
    var after := UpdateVpnStatus(Some(db), uid, false, now).value.value.vpnSessions.rows;
    forall y | y in after ensures !ActiveVpnOf(uid)(y) {
      var i :| 0 <= i < |after| && after[i] == y;
    }
  }

  /** After connecting, the caller has an active session: one new active
      `US-East` row is appended and no existing session changes. */
  lemma VpnOnStartsSession(db: Db, uid: int, now: Timestamp)
    ensures var before := db.vpnSessions.rows;
      var s' := UpdateVpnStatus(Some(db), uid, true, now).value;
      var after := s'.value.vpnSessions.rows;
      var row := after[|after| - 1];
      && |after| == |before| + 1 && after[..|before|] == before
      && row.userId == uid && row.isActive == 1 && row.serverLocation == ConnectLocation
      && row.dataUsedMB == 0 && row.connectedAt == now && row.disconnectedAt.None?
      && GetActiveVpnSession(s', uid).Some?
  {
    var s' := UpdateVpnStatus(Some(db), uid, true, now).value;
    var after := s'.value.vpnSessions.rows;
    assert ActiveVpnOf(uid)(after[|after| - 1]);
  }

  // ------------------------------------------------------- tracker blocks

  /** `getTrackerBlockStats`: the caller's trackers, most blocked first. */
  function GetTrackerBlockStats(s: Store, uid: int): (r: seq<TrackerBlock>)
    ensures s.None? ==> r == []
    ensures s.Some? ==> IsOrderedSelection(r, s.value.trackerBlocks.rows, TrackerOf(uid), TrackerBlockCount)
  {
    if s.None? then [] else OrderedSelect(s.value.trackerBlocks.rows, TrackerOf(uid), TrackerBlockCount)
  }

  /** `recordTrackerBlock`: appends one row; the count defaults to 1. */
  function RecordTrackerBlock(s: Store, n: NewTrackerBlock, now: Timestamp): (r: Outcome<Store>)
    ensures r.Err? <==> s.None?
    ensures r.Err? ==> r.error == StorageUnavailable
    ensures r.Ok? ==> r.value.Some? && r.value.value == s.value.(trackerBlocks := r.value.value.trackerBlocks)
    ensures r.Ok? ==> r.value.value.trackerBlocks.rows == s.value.trackerBlocks.rows + [ToTrackerBlock(n, s.value.trackerBlocks.nextId, now)]
    ensures r.Ok? && s.value.Valid() ==> r.value.value.Valid()
  {
    if s.None? then Err(StorageUnavailable)
    else
      var t := s.value.trackerBlocks;
      var row := ToTrackerBlock(n, t.nextId, now);
      InsertKeepsKeys(t, row, TrackerKey);
      Ok(Some(s.value.(trackerBlocks := Insert(t, row))))
  }

  // -------------------------------------------------------- fixed answers

  /** The settings record `getUserPreferences` returns for every user. */
  datatype Preferences = Preferences(
    trackerBlocking: bool, adBlocking: bool, screenshotDetection: bool,
    twoFactorAuth: bool, biometricLogin: bool, sessionTimeout: int,
    loginAlerts: bool, analyticsEnabled: bool, crashReports: bool,
    criticalAlerts: bool, highPriorityAlerts: bool, mediumPriorityAlerts: bool,
    lowPriorityAlerts: bool, inAppNotifications: bool, emailNotifications: bool,
    pushNotifications: bool)

  const DefaultPreferences: Preferences := Preferences(
    trackerBlocking := true, adBlocking := true, screenshotDetection := true,
    twoFactorAuth := false, biometricLogin := false, sessionTimeout := 30,
    loginAlerts := true, analyticsEnabled := false, crashReports := true,
    criticalAlerts := true, highPriorityAlerts := true, mediumPriorityAlerts := true,
    lowPriorityAlerts := false, inAppNotifications := true, emailNotifications := true,
    pushNotifications := false)

  datatype VpnServer = VpnServer(id: int, name: string, country: string, speed: string)

  /** The fixed server list `getVpnServers` returns. */
  const VpnServers: seq<VpnServer> := [
    VpnServer(1, "US-East", "United States", "Fast"),
    VpnServer(2, "US-West", "United States", "Fast"),
    VpnServer(3, "EU-London", "United Kingdom", "Very Fast"),
    VpnServer(4, "EU-Amsterdam", "Netherlands", "Very Fast"),
    VpnServer(5, "APAC-Singapore", "Singapore", "Fast")]
}

=== FILE: router.dfy ===
/** The procedure table of server/routers.ts. A protected procedure runs only
    for an authenticated caller and hands the data layer the caller's own
    user id as the owning user; ids in the procedure's input only ever select
    a row within that owner's data. */
module Router {
  import opened Common
  import opened Schema
  import opened Seqs
  import opened Data

  /** The input `settings.updatePreferences` accepts; every field optional. */
  datatype PreferencesPatch = PreferencesPatch(
    trackerBlocking: Option<bool>, adBlocking: Option<bool>, screenshotDetection: Option<bool>,
    twoFactorAuth: Option<bool>, biometricLogin: Option<bool>, sessionTimeout: Option<int>,
    loginAlerts: Option<bool>, analyticsEnabled: Option<bool>, crashReports: Option<bool>,
    criticalAlerts: Option<bool>, highPriorityAlerts: Option<bool>, mediumPriorityAlerts: Option<bool>,
    lowPriorityAlerts: Option<bool>, inAppNotifications: Option<bool>, emailNotifications: Option<bool>,
    pushNotifications: Option<bool>)

  /** A procedure call with its validated input. */
  datatype Procedure =
    | AuthMe
    | AuthLogout
    | PrivacyGetScore
    | PrivacyGetMetrics
    | PrivacyGetAlerts
    | MessagingGetConversations
    | MessagingToggleScreenshotDetection(enabled: bool)
    | BrowserGetTrackerStats
    | BrowserToggleTrackerBlocking(enabled: bool)
    | BrowserToggleAdBlocking(enabled: bool)
    | VpnGetStatus
    | VpnToggle(enabled: bool)
    | VpnGetServers
    | EmailGetAliases
    | EmailGetQuarantined
    | EmailDeleteAlias(aliasId: int)
    | VaultGetPasswords
    | VaultGetBreachedPasswords
    | VaultDeletePassword(passwordId: int)
    | GamificationGetStreak
    | GamificationGetBadges
    | GamificationIncrementStreak
    | SettingsGetPreferences
    | SettingsUpdatePreferences(patch: PreferencesPatch)

  /** Public procedures run without a signed-in caller. */
  predicate IsPublic(p: Procedure) {
    p.AuthMe? || p.AuthLogout?
  }

  /** The data-layer call a protected procedure makes; `uid` is the owning user. */
  datatype DbCall =
    | ReadScore(uid: int)
    | ReadMetrics(uid: int, limit: nat)
    | ReadAlerts(uid: int)
    | ReadConversations(uid: int)
    | SetPreference(uid: int, key: string, value: bool)
    | ReadTrackers(uid: int)
    | ReadVpn(uid: int)
    | SetVpn(uid: int, enabled: bool)
    | ReadServers
    | ReadAliases(uid: int)
    | ReadQuarantined(uid: int)
    | RemoveAlias(uid: int, aliasId: int)
    | ReadPasswords(uid: int)
    | ReadBreached(uid: int)
    | RemovePassword(uid: int, passwordId: int)
    | ReadStreak(uid: int)
    | ReadBadges(uid: int)
    | WriteStreak(uid: int, streak: StreakInput)
    | ReadPreferences(uid: int)
    | SetPreferences(uid: int, patch: PreferencesPatch)

  /** The calls that can change the store. */
  predicate Writes(c: DbCall) {
    c.SetVpn? || c.RemoveAlias? || c.RemovePassword? || c.WriteStreak?
  }

  /** What a procedure answers. */
  datatype Reply =
    | Unauthorized                         // a protected procedure without a caller
    | Failed(error: DbError)               // the data layer threw
    | UserReply(user: Option<User>)
    | ScoreReply(score: Option<PrivacyScore>)
    | MetricsReply(metrics: seq<PrivacyMetric>)
    | AlertsReply(alerts: seq<Alert>)
    | ConversationsReply                   // always the empty list
    | TrackersReply(trackers: seq<TrackerBlock>)
    | VpnReply(session: Option<VpnSession>)
    | ServersReply(servers: seq<VpnServer>)
    | AliasesReply(aliases: seq<EmailAlias>)
    | QuarantinedReply(emails: seq<QuarantinedEmail>)
    | PasswordsReply(entries: seq<PasswordEntry>)
    | StreakReply(streak: Option<PrivacyStreak>)
    | BadgesReply(badges: seq<Badge>)
    | PreferencesReply(preferences: Preferences)
    | Success                              // `{ success: true }`
    | Done                                 // a mutation that returns nothing

  /** How many metric rows `privacy.getMetrics` asks for. */
  const MetricsPageSize: nat := 30

  /** The data-layer call procedure `p` makes for the signed-in user `callerId`;
      `None` for the public procedures, which make none. */
  function Bind(p: Procedure, callerId: int, now: Timestamp): (r: Option<DbCall>)
    ensures r.None? <==> IsPublic(p)
    ensures r.Some? ==> r.value.ReadServers? || r.value.uid == callerId
    ensures r.Some? && Writes(r.value) <==>
              p.VpnToggle? || p.EmailDeleteAlias? || p.VaultDeletePassword? || p.GamificationIncrementStreak?
  {
    match p
    case AuthMe => None
    case AuthLogout => None
    case PrivacyGetScore => Some(ReadScore(callerId))
    case PrivacyGetMetrics => Some(ReadMetrics(callerId, MetricsPageSize))
    case PrivacyGetAlerts => Some(ReadAlerts(callerId))
    case MessagingGetConversations => Some(ReadConversations(callerId))
    case MessagingToggleScreenshotDetection(e) => Some(SetPreference(callerId, "screenshotDetection", e))
    case BrowserGetTrackerStats => Some(ReadTrackers(callerId))
    case BrowserToggleTrackerBlocking(e) => Some(SetPreference(callerId, "trackerBlocking", e))
    case BrowserToggleAdBlocking(e) => Some(SetPreference(callerId, "adBlocking", e))
    case VpnGetStatus => Some(ReadVpn(callerId))
    case VpnToggle(e) => Some(SetVpn(callerId, e))
    case VpnGetServers => Some(ReadServers)
    case EmailGetAliases => Some(ReadAliases(callerId))
    case EmailGetQuarantined => Some(ReadQuarantined(callerId))
    case EmailDeleteAlias(a) => Some(RemoveAlias(callerId, a))
    case VaultGetPasswords => Some(ReadPasswords(callerId))
    case VaultGetBreachedPasswords => Some(ReadBreached(callerId))
    case VaultDeletePassword(id) => Some(RemovePassword(callerId, id))
    case GamificationGetStreak => Some(ReadStreak(callerId))
    case GamificationGetBadges => Some(ReadBadges(callerId))
    case GamificationIncrementStreak => Some(WriteStreak(callerId, StreakInput(Some(1), None, Some(now))))
    case SettingsGetPreferences => Some(ReadPreferences(callerId))
    case SettingsUpdatePreferences(patch) => Some(SetPreferences(callerId, patch))
  }

  /** A write's outcome as a reply: the new store, or the error with the store kept. */
  function Commit(s: Store, o: Outcome<Store>, ok: Reply): (r: (Reply, Store))
    requires ok != Unauthorized && !ok.Failed?
    ensures o.Ok? ==> r == (ok, o.value)
    ensures o.Err? ==> r == (Failed(o.error), s)
  {
    match o
    case Ok(s') => (ok, s')
    case Err(e) => (Failed(e), s)
  }

  /** Runs one data-layer call. */
  function Execute(s: Store, c: DbCall, now: Timestamp): (r: (Reply, Store))
    ensures !Writes(c) ==> r.1 == s
    ensures r.0.Failed? <==> Writes(c) && s.None?
    ensures r.0.Failed? ==> r.0.error == StorageUnavailable && r.1 == s
    ensures r.1.Some? <==> s.Some?
    ensures s.Some? && s.value.Valid() ==> r.1.value.Valid()
    ensures r.0 != Unauthorized
  {
    match c
    case ReadScore(uid) => (ScoreReply(GetPrivacyScore(s, uid)), s)
    case ReadMetrics(uid, limit) => (MetricsReply(GetPrivacyMetrics(s, uid, limit)), s)
    case ReadAlerts(uid) => (AlertsReply(GetActiveAlerts(s, uid)), s)
    case ReadConversations(_) => (ConversationsReply, s)
    case SetPreference(_, _, _) => (Success, s)
    case ReadTrackers(uid) => (TrackersReply(GetTrackerBlockStats(s, uid)), s)
    case ReadVpn(uid) => (VpnReply(GetActiveVpnSession(s, uid)), s)
    case SetVpn(uid, e) => Commit(s, UpdateVpnStatus(s, uid, e, now), Success)
    case ReadServers => (ServersReply(VpnServers), s)
    case ReadAliases(uid) => (AliasesReply(GetEmailAliases(s, uid)), s)
    case ReadQuarantined(uid) => (QuarantinedReply(GetQuarantinedEmails(s, uid)), s)
    case RemoveAlias(uid, a) => Commit(s, DeleteEmailAlias(s, uid, a), Success)
    case ReadPasswords(uid) => (PasswordsReply(GetPasswordEntries(s, uid)), s)
    case ReadBreached(uid) => (PasswordsReply(GetBreachedPasswords(s, uid)), s)
    case RemovePassword(uid, id) => Commit(s, DeletePasswordEntry(s, uid, id), Success)
    case ReadStreak(uid) => (StreakReply(GetPrivacyStreak(s, uid)), s)
    case ReadBadges(uid) => (BadgesReply(GetUserBadges(s, uid)), s)
    case WriteStreak(uid, streak) => Commit(s, UpdatePrivacyStreak(s, uid, streak, now), Done)
    case ReadPreferences(_) => (PreferencesReply(DefaultPreferences), s)
    case SetPreferences(_, _) => (Success, s)
  }

  /** Handles one request: `ctx` is the signed-in user the middleware found, if any. */
  function Dispatch(s: Store, ctx: Option<User>, p: Procedure, now: Timestamp): (r: (Reply, Store))
    ensures r.0 == Unauthorized <==> ctx.None? && !IsPublic(p)
    ensures r.0 == Unauthorized ==> r.1 == s
    ensures IsPublic(p) ==> r.1 == s
    ensures r.1.Some? <==> s.Some?
    ensures s.Some? && s.value.Valid() ==> r.1.value.Valid()
  {
    match p
    case AuthMe => (UserReply(ctx), s)
    case AuthLogout => (Success, s)
    case _ =>
      if ctx.None? then (Unauthorized, s)
      else Execute(s, Bind(p, ctx.value.id, now).value, now)
  }

  /** A request that can only read leaves the store as it was. */
  lemma ReadsKeepStore(s: Store, ctx: Option<User>, p: Procedure, now: Timestamp)
    requires !(p.VpnToggle? || p.EmailDeleteAlias? || p.VaultDeletePassword? || p.GamificationIncrementStreak?)
    ensures Dispatch(s, ctx, p, now).1 == s
  {
    if !IsPublic(p) && ctx.Some? {
      assert !Writes(Bind(p, ctx.value.id, now).value);
    }
  }

  /** `auth.me` answers the context user, signed in or not. */
  lemma MeReturnsContext(s: Store, ctx: Option<User>, now: Timestamp)
    ensures Dispatch(s, ctx, AuthMe, now) == (UserReply(ctx), s)
  {
  }

  /** `vault.deletePassword` can delete only the caller's own entry: every
      other user's entry survives, whatever id the input names, and no other
      table changes. */
  lemma DeletePasswordOnlyOwn(db: Db, caller: User, passwordId: int, now: Timestamp)
    ensures var r := Dispatch(Some(db), Some(caller), VaultDeletePassword(passwordId), now);
      && r.0 == Success && r.1.Some?
      && r.1.value == db.(passwordEntries := r.1.value.passwordEntries)
      && (forall x | x in db.passwordEntries.rows && x.userId != caller.id :: x in r.1.value.passwordEntries.rows)
      && (forall x :: x in r.1.value.passwordEntries.rows <==>
            x in db.passwordEntries.rows && !(x.userId == caller.id && x.id == passwordId))
  {
    DeletePasswordRuns(Some(db), caller, passwordId, now);
    DeletePasswordScoped(db, caller.id, passwordId);
  }

  /** `email.deleteAlias` can delete only the caller's own alias. */
  lemma DeleteAliasOnlyOwn(db: Db, caller: User, aliasId: int, now: Timestamp)
    ensures var r := Dispatch(Some(db), Some(caller), EmailDeleteAlias(aliasId), now);
      && r.0 == Success && r.1.Some?
      && r.1.value == db.(emailAliases := r.1.value.emailAliases)
      && (forall x | x in db.emailAliases.rows && x.userId != caller.id :: x in r.1.value.emailAliases.rows)
      && (forall x :: x in r.1.value.emailAliases.rows <==>
            x in db.emailAliases.rows && !(x.userId == caller.id && x.id == aliasId))
  {
    DeleteAliasRuns(Some(db), caller, aliasId, now);
    DeleteAliasScoped(db, caller.id, aliasId);
  }

  /** `gamification.incrementStreak` appends a row for the caller with
      `currentStreak` 1 and the check-in time now, whatever the caller's
      earlier streak rows held. */
  lemma IncrementStreakWritesOne(db: Db, caller: User, now: Timestamp)
    ensures var r := Dispatch(Some(db), Some(caller), GamificationIncrementStreak, now);
      var before := db.privacyStreaks.rows;
      var after := r.1.value.privacyStreaks.rows;
      && r.0 == Done
      && |after| == |before| + 1 && after[..|before|] == before
      && after[|before|].userId == caller.id
      && after[|before|].currentStreak == 1
      && after[|before|].longestStreak == 0
      && after[|before|].lastCheckInDate == Some(now)
  {
    var streak := StreakInput(Some(1), None, Some(now));
    var o := UpdatePrivacyStreak(Some(db), caller.id, streak, now);
    IncrementStreakRuns(Some(db), caller, now);
    StreakUpdateAppends(db, caller.id, streak, now);
    var after := o.value.value.privacyStreaks.rows;
    assert after[..|db.privacyStreaks.rows|] == db.privacyStreaks.rows;
  }

  /** `privacy.getMetrics` answers at most 30 rows, all the caller's, newest first. */
  lemma GetMetricsAtMostThirty(s: Store, caller: User, now: Timestamp)
    ensures var r := Dispatch(s, Some(caller), PrivacyGetMetrics, now).0;
      && r.MetricsReply?
      && r.metrics == GetPrivacyMetrics(s, caller.id, 30)
      && |r.metrics| <= 30
      && (forall x | x in r.metrics :: x.userId == caller.id)
      && (forall i, j | 0 <= i < j < |r.metrics| :: r.metrics[i].recordedAt >= r.metrics[j].recordedAt)
  {
    ReadsAnswerCaller(s, caller, PrivacyGetMetrics, now, Dispatch(s, Some(caller), PrivacyGetMetrics, now).0);
    MetricsBounded(s, caller.id, MetricsPageSize);
  }

  /** Each read call answers what its data-layer function returns for the
      call's own user id. */
  lemma ExecuteAnswers(s: Store, c: DbCall, now: Timestamp, r: Reply)
    requires r == Execute(s, c, now).0
    ensures c.ReadScore? ==> r == ScoreReply(GetPrivacyScore(s, c.uid))
    ensures c.ReadMetrics? ==> r == MetricsReply(GetPrivacyMetrics(s, c.uid, c.limit))
    ensures c.ReadAlerts? ==> r == AlertsReply(GetActiveAlerts(s, c.uid))
    ensures c.ReadTrackers? ==> r == TrackersReply(GetTrackerBlockStats(s, c.uid))
    ensures c.ReadVpn? ==> r == VpnReply(GetActiveVpnSession(s, c.uid))
    ensures c.ReadAliases? ==> r == AliasesReply(GetEmailAliases(s, c.uid))
    ensures c.ReadQuarantined? ==> r == QuarantinedReply(GetQuarantinedEmails(s, c.uid))
    ensures c.ReadPasswords? ==> r == PasswordsReply(GetPasswordEntries(s, c.uid))
    ensures c.ReadBreached? ==> r == PasswordsReply(GetBreachedPasswords(s, c.uid))
    ensures c.ReadStreak? ==> r == StreakReply(GetPrivacyStreak(s, c.uid))
    ensures c.ReadBadges? ==> r == BadgesReply(GetUserBadges(s, c.uid))
  {
  }

  /** A protected procedure with a signed-in caller runs the call bound to
      the caller's own id. */
  lemma ProtectedRunsBound(s: Store, caller: User, p: Procedure, now: Timestamp)
    requires !IsPublic(p)
    ensures Dispatch(s, Some(caller), p, now) == Execute(s, Bind(p, caller.id, now).value, now)
  {
  }

  /** Every protected read answers what its data-layer function returns for
      the signed-in caller's own id, whatever else the store holds. */
  lemma ReadsAnswerCaller(s: Store, caller: User, p: Procedure, now: Timestamp, r: Reply)
    requires r == Dispatch(s, Some(caller), p, now).0
    ensures p.PrivacyGetScore? ==> r == ScoreReply(GetPrivacyScore(s, caller.id))
    ensures p.PrivacyGetMetrics? ==> r == MetricsReply(GetPrivacyMetrics(s, caller.id, 30))
    ensures p.PrivacyGetAlerts? ==> r == AlertsReply(GetActiveAlerts(s, caller.id))
    ensures p.MessagingGetConversations? ==> r == ConversationsReply
    ensures p.BrowserGetTrackerStats? ==> r == TrackersReply(GetTrackerBlockStats(s, caller.id))
    ensures p.VpnGetStatus? ==> r == VpnReply(GetActiveVpnSession(s, caller.id))
    ensures p.VpnGetServers? ==> r == ServersReply(VpnServers)
    ensures p.EmailGetAliases? ==> r == AliasesReply(GetEmailAliases(s, caller.id))
    ensures p.EmailGetQuarantined? ==> r == QuarantinedReply(GetQuarantinedEmails(s, caller.id))
    ensures p.VaultGetPasswords? ==> r == PasswordsReply(GetPasswordEntries(s, caller.id))
    ensures p.VaultGetBreachedPasswords? ==> r == PasswordsReply(GetBreachedPasswords(s, caller.id))
    ensures p.GamificationGetStreak? ==> r == StreakReply(GetPrivacyStreak(s, caller.id))
    ensures p.GamificationGetBadges? ==> r == BadgesReply(GetUserBadges(s, caller.id))
    ensures p.SettingsGetPreferences? ==> r == PreferencesReply(DefaultPreferences)
  {
    if !IsPublic(p) {
      ProtectedRunsBound(s, caller, p, now);
      var c := Bind(p, caller.id, now).value;
      assert c.ReadServers? || c.uid == caller.id;
      ExecuteAnswers(s, c, now, r);
    }
  }

  // The mutations the lemmas above take apart.

  lemma DeletePasswordRuns(s: Store, caller: User, passwordId: int, now: Timestamp)
    ensures Dispatch(s, Some(caller), VaultDeletePassword(passwordId), now)
         == Commit(s, DeletePasswordEntry(s, caller.id, passwordId), Success)
  {
    ProtectedRunsBound(s, caller, VaultDeletePassword(passwordId), now);
    assert Bind(VaultDeletePassword(passwordId), caller.id, now) == Some(RemovePassword(caller.id, passwordId));
  }

  lemma DeleteAliasRuns(s: Store, caller: User, aliasId: int, now: Timestamp)
    ensures Dispatch(s, Some(caller), EmailDeleteAlias(aliasId), now)
         == Commit(s, DeleteEmailAlias(s, caller.id, aliasId), Success)
  {
    ProtectedRunsBound(s, caller, EmailDeleteAlias(aliasId), now);
    assert Bind(EmailDeleteAlias(aliasId), caller.id, now) == Some(RemoveAlias(caller.id, aliasId));
  }

  lemma IncrementStreakRuns(s: Store, caller: User, now: Timestamp)
    ensures Dispatch(s, Some(caller), GamificationIncrementStreak, now)
         == Commit(s, UpdatePrivacyStreak(s, caller.id, StreakInput(Some(1), None, Some(now)), now), Done)
  {
    ProtectedRunsBound(s, caller, GamificationIncrementStreak, now);
    assert Bind(GamificationIncrementStreak, caller.id, now)
        == Some(WriteStreak(caller.id, StreakInput(Some(1), None, Some(now))));
  }

  /** `vault.getPasswords` and `email.getAliases` answer only the caller's
      rows, and every such row of the caller. */
  lemma VaultAndAliasReadsOwnOnly(db: Db, caller: User, now: Timestamp)
    ensures var r := Dispatch(Some(db), Some(caller), VaultGetPasswords, now).0;
      r.PasswordsReply? && forall e :: e in r.entries <==> e in db.passwordEntries.rows && e.userId == caller.id
    ensures var r := Dispatch(Some(db), Some(caller), EmailGetAliases, now).0;
      r.AliasesReply? && forall a :: a in r.aliases <==> a in db.emailAliases.rows && a.userId == caller.id
  {
    ReadsAnswerCaller(Some(db), caller, VaultGetPasswords, now, Dispatch(Some(db), Some(caller), VaultGetPasswords, now).0);
    ReadsAnswerCaller(Some(db), caller, EmailGetAliases, now, Dispatch(Some(db), Some(caller), EmailGetAliases, now).0);
    var entries := GetPasswordEntries(Some(db), caller.id);
    OrderedSelectionMembers(entries, db.passwordEntries.rows, PasswordOf(caller.id), PasswordCreatedAt);
    var aliases := GetEmailAliases(Some(db), caller.id);
    forall a ensures a in aliases <==> a in db.emailAliases.rows && a.userId == caller.id {
      assert a in aliases <==> a in multiset(aliases);
      assert a in Filter(db.emailAliases.rows, AliasOf(caller.id)) <==> a in multiset(Filter(db.emailAliases.rows, AliasOf(caller.id)));
    }
  }

  /** `vpn.toggleVpn` hands its flag unchanged to `updateVpnStatus` for the caller. */
  lemma ToggleVpnForwards(s: Store, caller: User, enabled: bool, now: Timestamp)
    ensures var o := UpdateVpnStatus(s, caller.id, enabled, now);
      Dispatch(s, Some(caller), VpnToggle(enabled), now) ==
        (if o.Ok? then (Success, o.value) else (Failed(o.error), s))
  {
  }

  /** `settings.updatePreferences` stores nothing: it answers success, the store
      is unchanged, and a later `settings.getPreferences` still answers the
      fixed default record. */
  lemma UpdatePreferencesPersistsNothing(s: Store, caller: User, patch: PreferencesPatch, now: Timestamp, later: Timestamp)
    ensures var r := Dispatch(s, Some(caller), SettingsUpdatePreferences(patch), now);
      && r == (Success, s)
      && Dispatch(r.1, Some(caller), SettingsGetPreferences, later).0 == PreferencesReply(DefaultPreferences)
  {
  }
}

=== FILE: schema.dfy ===
/** The relational schema (drizzle/schema.ts): one row datatype per table,
    the enumerations, the column defaults an insert falls back on, and the
    declared keys — an auto-increment primary key `id` on every table, plus
    the unique columns `users.openId` and `emailAliases.aliasEmail`. The
    store is one table per entity; "storage unavailable" is the absent
    store. Integer flag columns (`isResolved`, `isActive`, …) stay integers,
    because the queries compare them with 0 and 1. */
module Schema {
  import opened Common
  import opened Seqs

  /** A point in time; every `new Date()` / `defaultNow()` becomes a `now` argument. */
  type Timestamp = int

  // ---------------------------------------------------------------- users

  datatype Role = UserRole | AdminRole

  datatype User = User(
    id: int,
    openId: string,
    name: Option<string>,
    email: Option<string>,
    loginMethod: Option<string>,
    role: Role,
    createdAt: Timestamp,
    updatedAt: Timestamp,
    lastSignedIn: Timestamp)

  // ------------------------------------------------- metrics and scores

  datatype MetricType =
    | E2eeMessages | SelfDestructMessages | TrackersBlocked | AdsBlocked
    | FingerprintingBlocked | VpnConnected | E2eeEmails | PhishingDetected
    | WeakPasswords | BreachesDetected

  datatype PrivacyMetric = PrivacyMetric(
    id: int, userId: int, metricType: MetricType, value: int, recordedAt: Timestamp)

  datatype PrivacyScore = PrivacyScore(
    id: int, userId: int, score: int,
    messagingScore: int, browsingScore: int, vpnScore: int, emailScore: int, passwordScore: int,
    recordedAt: Timestamp)

  /** An insert into `privacyScores`; `None` is an omitted column. */
  datatype NewPrivacyScore = NewPrivacyScore(
    userId: int, score: int,
    messagingScore: Option<int>, browsingScore: Option<int>, vpnScore: Option<int>,
    emailScore: Option<int>, passwordScore: Option<int>, recordedAt: Option<Timestamp>)

  /** The row an insert into `privacyScores` stores: sub-scores default to 0. */
  function ToPrivacyScore(n: NewPrivacyScore, id: int, now: Timestamp): (r: PrivacyScore)
    ensures r.id == id && r.userId == n.userId && r.score == n.score
    ensures n.messagingScore.None? ==> r.messagingScore == 0
    ensures n.messagingScore.Some? ==> r.messagingScore == n.messagingScore.value
    ensures n.browsingScore.None? ==> r.browsingScore == 0
    ensures n.browsingScore.Some? ==> r.browsingScore == n.browsingScore.value
    ensures n.vpnScore.None? ==> r.vpnScore == 0
    ensures n.vpnScore.Some? ==> r.vpnScore == n.vpnScore.value
    ensures n.emailScore.None? ==> r.emailScore == 0
    ensures n.emailScore.Some? ==> r.emailScore == n.emailScore.value
    ensures n.passwordScore.None? ==> r.passwordScore == 0
    ensures n.passwordScore.Some? ==> r.passwordScore == n.passwordScore.value
    ensures r.recordedAt == n.recordedAt.OrElse(now)
  {
    PrivacyScore(id, n.userId, n.score,
      n.messagingScore.OrElse(0), n.browsingScore.OrElse(0), n.vpnScore.OrElse(0),
      n.emailScore.OrElse(0), n.passwordScore.OrElse(0), n.recordedAt.OrElse(now))
  }

  // ------------------------------------------- alerts and recommendations

  datatype AlertType =
    | WeakPassword | DataLeak | PhishingEmail | MaliciousTracker
    | UnencryptedConnection | VpnDisconnected | SuspiciousApp

  datatype Severity = Low | Medium | High | Critical

  datatype Alert = Alert(
    id: int, userId: int, alertType: AlertType, severity: Severity,
    title: string, description: Option<string>,
    isResolved: int, createdAt: Timestamp, resolvedAt: Option<Timestamp>)

  datatype NewAlert = NewAlert(
    userId: int, alertType: AlertType, severity: Option<Severity>,
    title: string, description: Option<string>,
    isResolved: Option<int>, createdAt: Option<Timestamp>, resolvedAt: Option<Timestamp>)

  /** The row an insert into `alerts` stores: severity `medium` and unresolved
      unless the insert says otherwise. */
  function ToAlert(n: NewAlert, id: int, now: Timestamp): (r: Alert)
    ensures r.id == id && r.userId == n.userId && r.alertType == n.alertType && r.title == n.title
    ensures r.severity == (if n.severity.Some? then n.severity.value else Medium)
    ensures r.description == n.description
    ensures n.isResolved.None? ==> r.isResolved == 0
    ensures n.isResolved.Some? ==> r.isResolved == n.isResolved.value
    ensures n.resolvedAt.None? ==> r.resolvedAt.None?
    ensures n.resolvedAt.Some? ==> r.resolvedAt == Some(n.resolvedAt.value)
    ensures r.createdAt == n.createdAt.OrElse(now)
  {
    Alert(id, n.userId, n.alertType, n.severity.OrElse(Medium), n.title, n.description,
      n.isResolved.OrElse(0), n.createdAt.OrElse(now), n.resolvedAt)
  }

  datatype RecommendationType =
    | UpdatePassword | EnableVpn | ReviewQuarantinedEmails | EnableE2ee
    | BlockTrackers | AuditPasswords

  datatype Recommendation = Recommendation(
    id: int, userId: int, recommendationType: RecommendationType,
    title: string, description: Option<string>, actionUrl: Option<string>,
    priority: int, isCompleted: int, createdAt: Timestamp, completedAt: Option<Timestamp>)

  datatype NewRecommendation = NewRecommendation(
    userId: int, recommendationType: RecommendationType,
    title: string, description: Option<string>, actionUrl: Option<string>,
    priority: Option<int>, isCompleted: Option<int>,
    createdAt: Option<Timestamp>, completedAt: Option<Timestamp>)

  /** The row an insert into `recommendations` stores: priority 0 and not
      completed unless the insert says otherwise. */
  function ToRecommendation(n: NewRecommendation, id: int, now: Timestamp): (r: Recommendation)
    ensures r.id == id && r.userId == n.userId && r.recommendationType == n.recommendationType
    ensures r.title == n.title && r.description == n.description && r.actionUrl == n.actionUrl
    ensures n.priority.None? ==> r.priority == 0
    ensures n.priority.Some? ==> r.priority == n.priority.value
    ensures n.isCompleted.None? ==> r.isCompleted == 0
    ensures n.isCompleted.Some? ==> r.isCompleted == n.isCompleted.value
    ensures n.completedAt.None? ==> r.completedAt.None?
    ensures n.completedAt.Some? ==> r.completedAt == Some(n.completedAt.value)
    ensures r.createdAt == n.createdAt.OrElse(now)
  {
    Recommendation(id, n.userId, n.recommendationType, n.title, n.description, n.actionUrl,
      n.priority.OrElse(0), n.isCompleted.OrElse(0), n.createdAt.OrElse(now), n.completedAt)
  }

  // ------------------------------------------------------- gamification

  /** A streak row. No unique key covers `userId`, so a user may own several. */
  datatype PrivacyStreak = PrivacyStreak(
    id: int, userId: int, currentStreak: int, longestStreak: int,
    lastCheckInDate: Option<Timestamp>, updatedAt: Timestamp)

  /** The streak columns a caller may supply (the user id is bound separately). */
  datatype StreakInput = StreakInput(
    currentStreak: Option<int>, longestStreak: Option<int>, lastCheckInDate: Option<Timestamp>)

  /** The row an insert into `privacyStreaks` stores: counters default to 0. */
  function ToPrivacyStreak(userId: int, n: StreakInput, id: int, now: Timestamp): (r: PrivacyStreak)
    ensures r.id == id && r.userId == userId && r.lastCheckInDate == n.lastCheckInDate
    ensures r.currentStreak == n.currentStreak.OrElse(0) && r.longestStreak == n.longestStreak.OrElse(0)
    ensures r.updatedAt == now
  {
    PrivacyStreak(id, userId, n.currentStreak.OrElse(0), n.longestStreak.OrElse(0), n.lastCheckInDate, now)
  }

  datatype BadgeType =
    | E2eeMaster | FingerprintGhost | VpnGuardian | PhishingDefender
    | PasswordPro | PrivacyChampion | SevenDayStreak | ThirtyDayStreak

  datatype Badge = Badge(id: int, userId: int, badgeType: BadgeType, earnedAt: Timestamp)

  // ------------------------------------------------------ password vault

  datatype Strength = Weak | Fair | Good | Strong

  datatype PasswordEntry = PasswordEntry(
    id: int, userId: int, websiteUrl: string, username: string, encryptedPassword: string,
    passwordStrength: Strength, isBreached: int, lastModified: Timestamp, createdAt: Timestamp)

  datatype NewPasswordEntry = NewPasswordEntry(
    userId: int, websiteUrl: string, username: string, encryptedPassword: string,
    passwordStrength: Option<Strength>, isBreached: Option<int>,
    lastModified: Option<Timestamp>, createdAt: Option<Timestamp>)

  /** The row an insert into `passwordEntries` stores: strength `fair` and not
      breached unless the insert says otherwise. */
  function ToPasswordEntry(n: NewPasswordEntry, id: int, now: Timestamp): (r: PasswordEntry)
    ensures r.id == id && r.userId == n.userId && r.websiteUrl == n.websiteUrl
    ensures r.username == n.username && r.encryptedPassword == n.encryptedPassword
    ensures r.passwordStrength == (if n.passwordStrength.Some? then n.passwordStrength.value else Fair)
    ensures n.isBreached.None? ==> r.isBreached == 0
    ensures n.isBreached.Some? ==> r.isBreached == n.isBreached.value
    ensures r.lastModified == n.lastModified.OrElse(now)
    ensures r.createdAt == n.createdAt.OrElse(now)
  {
    PasswordEntry(id, n.userId, n.websiteUrl, n.username, n.encryptedPassword,
      n.passwordStrength.OrElse(Fair), n.isBreached.OrElse(0),
      n.lastModified.OrElse(now), n.createdAt.OrElse(now))
  }

  // --------------------------------------------------------------- email

  datatype EmailAlias = EmailAlias(
    id: int, userId: int, aliasEmail: string, forwardingEmail: string,
    isActive: int, createdAt: Timestamp)

  datatype NewEmailAlias = NewEmailAlias(
    userId: int, aliasEmail: string, forwardingEmail: string,
    isActive: Option<int>, createdAt: Option<Timestamp>)

  /** The row an insert into `emailAliases` stores: active unless said otherwise. */
  function ToEmailAlias(n: NewEmailAlias, id: int, now: Timestamp): (r: EmailAlias)
    ensures r.id == id && r.userId == n.userId
    ensures r.aliasEmail == n.aliasEmail && r.forwardingEmail == n.forwardingEmail
    ensures n.isActive.None? ==> r.isActive == 1
    ensures n.isActive.Some? ==> r.isActive == n.isActive.value
    ensures r.createdAt == n.createdAt.OrElse(now)
  {
    EmailAlias(id, n.userId, n.aliasEmail, n.forwardingEmail, n.isActive.OrElse(1), n.createdAt.OrElse(now))
  }

  datatype ThreatType = Phishing | Spam | Malware | Suspicious

  datatype QuarantinedEmail = QuarantinedEmail(
    id: int, userId: int, senderEmail: string, subject: Option<string>,
    threatType: ThreatType, encryptedContent: Option<string>,
    isReviewed: int, createdAt: Timestamp)

  datatype NewQuarantinedEmail = NewQuarantinedEmail(
    userId: int, senderEmail: string, subject: Option<string>,
    threatType: ThreatType, encryptedContent: Option<string>,
    isReviewed: Option<int>, createdAt: Option<Timestamp>)

  /** The row an insert into `quarantinedEmails` stores: not yet reviewed
      unless said otherwise. */
  function ToQuarantinedEmail(n: NewQuarantinedEmail, id: int, now: Timestamp): (r: QuarantinedEmail)
    ensures r.id == id && r.userId == n.userId && r.senderEmail == n.senderEmail
    ensures r.threatType == n.threatType
    ensures r.subject == n.subject && r.encryptedContent == n.encryptedContent
    ensures n.isReviewed.None? ==> r.isReviewed == 0
    ensures n.isReviewed.Some? ==> r.isReviewed == n.isReviewed.value
    ensures r.createdAt == n.createdAt.OrElse(now)
  {
    QuarantinedEmail(id, n.userId, n.senderEmail, n.subject, n.threatType, n.encryptedContent,
      n.isReviewed.OrElse(0), n.createdAt.OrElse(now))
  }

  // ---------------------------------------------------- VPN and trackers

  datatype VpnSession = VpnSession(
    id: int, userId: int, serverLocation: string, isActive: int, dataUsedMB: int,
    connectedAt: Timestamp, disconnectedAt: Option<Timestamp>)

  datatype NewVpnSession = NewVpnSession(
    userId: int, serverLocation: string, isActive: Option<int>, dataUsedMB: Option<int>,
    connectedAt: Option<Timestamp>, disconnectedAt: Option<Timestamp>)

  /** The row an insert into `vpnSessions` stores: active, no data used,
      connected now, unless said otherwise. */
  function ToVpnSession(n: NewVpnSession, id: int, now: Timestamp): (r: VpnSession)
    ensures r.id == id && r.userId == n.userId && r.serverLocation == n.serverLocation
    ensures n.isActive.None? ==> r.isActive == 1
    ensures n.isActive.Some? ==> r.isActive == n.isActive.value
    ensures n.dataUsedMB.None? ==> r.dataUsedMB == 0
    ensures n.dataUsedMB.Some? ==> r.dataUsedMB == n.dataUsedMB.value
    ensures r.connectedAt == n.connectedAt.OrElse(now)
    ensures r.disconnectedAt == n.disconnectedAt
  {
    VpnSession(id, n.userId, n.serverLocation, n.isActive.OrElse(1), n.dataUsedMB.OrElse(0),
      n.connectedAt.OrElse(now), n.disconnectedAt)
  }

  datatype TrackerType = Analytics | Advertising | Social | Fingerprinting

  datatype TrackerBlock = TrackerBlock(
    id: int, userId: int, trackerDomain: string, trackerType: TrackerType,
    blockCount: int, lastBlockedAt: Timestamp)

  datatype NewTrackerBlock = NewTrackerBlock(
    userId: int, trackerDomain: string, trackerType: TrackerType,
    blockCount: Option<int>, lastBlockedAt: Option<Timestamp>)

  /** The row an insert into `trackerBlocks` stores: one block unless said otherwise. */
  function ToTrackerBlock(n: NewTrackerBlock, id: int, now: Timestamp): (r: TrackerBlock)
    ensures r.id == id && r.userId == n.userId && r.trackerDomain == n.trackerDomain
    ensures r.trackerType == n.trackerType
    ensures n.blockCount.None? ==> r.blockCount == 1
    ensures n.blockCount.Some? ==> r.blockCount == n.blockCount.value
    ensures r.lastBlockedAt == n.lastBlockedAt.OrElse(now)
  {
    TrackerBlock(id, n.userId, n.trackerDomain, n.trackerType, n.blockCount.OrElse(1), n.lastBlockedAt.OrElse(now))
  }

  // ------------------------------------------------------------- tables

  /** A table: its rows in storage order and the next auto-increment id. */
  datatype Table<T> = Table(rows: seq<T>, nextId: int)

  /** An insert: the row (whose id the caller took from `nextId`) goes last. */
  function Insert<T>(t: Table<T>, row: T): (r: Table<T>)
    ensures r.rows == t.rows + [row] && r.nextId == t.nextId + 1
  {
    Table(t.rows + [row], t.nextId + 1)
  }

  /** No two rows agree on `key`: what a primary or unique key guarantees. */
  predicate DistinctBy<T, K(==)>(rows: seq<T>, key: T -> K) {
    forall i, j :: 0 <= i < j < |rows| ==> key(rows[i]) != key(rows[j])
  }

  /** Distinct primary keys, all below the auto-increment counter. */
  predicate WellKeyed<T>(t: Table<T>, id: T -> int) {
    && DistinctBy(t.rows, id)
    && forall i :: 0 <= i < |t.rows| ==> id(t.rows[i]) < t.nextId
  }

  function UserKey(u: User): int { u.id }
  function UserOpenId(u: User): string { u.openId }
  function ScoreKey(s: PrivacyScore): int { s.id }
  function MetricKey(m: PrivacyMetric): int { m.id }
  function AlertKey(a: Alert): int { a.id }
  function RecommendationKey(r: Recommendation): int { r.id }
  function StreakKey(s: PrivacyStreak): int { s.id }
  function BadgeKey(b: Badge): int { b.id }
  function PasswordKey(p: PasswordEntry): int { p.id }
  function AliasKey(a: EmailAlias): int { a.id }
  function AliasAddress(a: EmailAlias): string { a.aliasEmail }
  function QuarantineKey(q: QuarantinedEmail): int { q.id }
  function VpnKey(v: VpnSession): int { v.id }
  function TrackerKey(t: TrackerBlock): int { t.id }

  datatype Db = Db(
    users: Table<User>,
    privacyMetrics: Table<PrivacyMetric>,
    privacyScores: Table<PrivacyScore>,
    alerts: Table<Alert>,
    recommendations: Table<Recommendation>,
    privacyStreaks: Table<PrivacyStreak>,
    badges: Table<Badge>,
    passwordEntries: Table<PasswordEntry>,
    emailAliases: Table<EmailAlias>,
    quarantinedEmails: Table<QuarantinedEmail>,
    vpnSessions: Table<VpnSession>,
    trackerBlocks: Table<TrackerBlock>)
  {
    /** Every key the schema declares holds: primary keys on all tables,
        `users.openId` and `emailAliases.aliasEmail` unique. */
    predicate Valid() {
      && WellKeyed(users, UserKey)
      && DistinctBy(users.rows, UserOpenId)
      && WellKeyed(privacyMetrics, MetricKey)
      && WellKeyed(privacyScores, ScoreKey)
      && WellKeyed(alerts, AlertKey)
      && WellKeyed(recommendations, RecommendationKey)
      && WellKeyed(privacyStreaks, StreakKey)
      && WellKeyed(badges, BadgeKey)
      && WellKeyed(passwordEntries, PasswordKey)
      && WellKeyed(emailAliases, AliasKey)
      && DistinctBy(emailAliases.rows, AliasAddress)
      && WellKeyed(quarantinedEmails, QuarantineKey)
      && WellKeyed(vpnSessions, VpnKey)
      && WellKeyed(trackerBlocks, TrackerKey)
    }
  }

  /** The connection handle: `None` when no database is configured or the
      connection could not be made. */
  type Store = Option<Db>

  /** Why a data-access call threw. */
  datatype DbError =
    | StorageUnavailable   // a write found no connection
    | MissingOpenId        // upsertUser was given no usable openId
    | DuplicateEntry       // an insert collided with a unique key

  /** The result of a call that may throw. */
  datatype Outcome<T> = Ok(value: T) | Err(error: DbError)

  /** Appending a row that carries the next id keeps the primary key sound. */
  lemma InsertKeepsKeys<T>(t: Table<T>, row: T, id: T -> int)
    requires id(row) == t.nextId
    ensures WellKeyed(t, id) ==> WellKeyed(Insert(t, row), id)
  {
    if !WellKeyed(t, id) {
      return;
    }
    forall y | y in t.rows ensures id(y) != id(row) {
      var k :| 0 <= k < |t.rows| && t.rows[k] == y;
    }
    SnocKeepsDistinct(t.rows, row, id);
  }

  /** Appending a row whose key no existing row has keeps the key distinct. */
  lemma SnocKeepsDistinct<T, K>(s: seq<T>, x: T, key: T -> K)
    requires forall y | y in s :: key(y) != key(x)
    ensures DistinctBy(s, key) ==> DistinctBy(s + [x], key)
  {
    if !DistinctBy(s, key) {
      return;
    }
    var r := s + [x];
    forall i, j | 0 <= i < j < |r| ensures key(r[i]) != key(r[j]) {
      assert r[i] == s[i];
      if j < |s| {
        assert r[j] == s[j];
      }
    }
  }

  /** Removing rows never makes two remaining rows agree on a key. */
  lemma {:induction false} FilterKeepsDistinct<T(!new), K>(rows: seq<T>, p: T -> bool, key: T -> K)
    ensures DistinctBy(rows, key) ==> DistinctBy(Filter(rows, p), key)
  {
    if |rows| > 0 && DistinctBy(rows, key) {
      var tail := rows[1..];
      assert DistinctBy(tail, key) by {
        forall i, j | 0 <= i < j < |tail| ensures key(tail[i]) != key(tail[j]) {
          assert tail[i] == rows[i + 1] && tail[j] == rows[j + 1];
        }
      }
      FilterKeepsDistinct(tail, p, key);
      if p(rows[0]) {
        var ft := Filter(tail, p);
        forall y | y in ft ensures key(y) != key(rows[0]) {
          var k :| 0 <= k < |tail| && tail[k] == y;
          assert rows[k + 1] == y;
        }
        ConsKeepsDistinct(rows[0], ft, key);
        assert Filter(rows, p) == [rows[0]] + ft;
      } else {
        assert Filter(rows, p) == Filter(tail, p);
      }
    }
  }

  lemma ConsKeepsDistinct<T, K>(x: T, s: seq<T>, key: T -> K)
    requires DistinctBy(s, key)
    requires forall y | y in s :: key(y) != key(x)
    ensures DistinctBy([x] + s, key)
  {
    var r := [x] + s;
    forall i, j | 0 <= i < j < |r| ensures key(r[i]) != key(r[j]) {
      assert r[j] == s[j - 1];
      if i > 0 {
        assert r[i] == s[i - 1];
      }
    }
  }

  /** Deleting rows keeps a table well keyed. */
  lemma FilterKeepsKeys<T(!new)>(t: Table<T>, p: T -> bool, id: T -> int)
    ensures WellKeyed(t, id) ==> WellKeyed(Table(Filter(t.rows, p), t.nextId), id)
  {
    if !WellKeyed(t, id) {
      return;
    }
    FilterKeepsDistinct(t.rows, p, id);
    var r := Filter(t.rows, p);
    forall i | 0 <= i < |r| ensures id(r[i]) < t.nextId {
      assert r[i] in t.rows;
    }
  }
}

=== FILE: seqs.dfy ===
/** The relational operations the data-access layer uses on a table: WHERE
    (filter), ORDER BY … DESC, LIMIT. SQL fixes no order among rows with equal
    sort keys, so each query form is specified by a predicate that accepts
    every correct answer; the functions here compute one such answer. */
module Seqs {
  import opened Common

  /** The rows of `s` satisfying `p`, in table order. */
  function Filter<T(==,!new)>(s: seq<T>, p: T -> bool): (r: seq<T>)
    ensures |r| <= |s|
    ensures forall i :: 0 <= i < |r| ==> p(r[i])
    ensures forall x :: x in r <==> x in s && p(x)
  {
    if |s| == 0 then []
    else
      assert s == [s[0]] + s[1..];
      (if p(s[0]) then [s[0]] else []) + Filter(s[1..], p)
  }

  /** Keys never increase along `s`. */
  predicate SortedDesc<T>(s: seq<T>, key: T -> int) {
    forall i, j :: 0 <= i < j < |s| ==> key(s[i]) >= key(s[j])
  }

  /** Inserts `x` into a sequence already in non-increasing key order. */
  function InsertDesc<T(==,!new)>(x: T, s: seq<T>, key: T -> int): (r: seq<T>)
    requires SortedDesc(s, key)
    ensures SortedDesc(r, key)
    ensures multiset(r) == multiset(s) + multiset{x}
    ensures |r| == |s| + 1
  {
    if |s| == 0 then [x]
    else if key(x) >= key(s[0]) then
      ConsSorted(x, s, key);
      [x] + s
    else
      var rest := InsertDesc(x, s[1..], key);
      assert s == [s[0]] + s[1..];
      InsertedBelowHead(x, s, key, rest);
      ConsSorted(s[0], rest, key);
      [s[0]] + rest
  }

  /** Putting `h` in front of a key-descending sequence whose keys do not
      exceed `key(h)` keeps it key-descending. */
  lemma ConsSorted<T>(h: T, s: seq<T>, key: T -> int)
    requires SortedDesc(s, key)
    requires forall y | y in s :: key(y) <= key(h)
    ensures SortedDesc([h] + s, key)
  {
    var r := [h] + s;
    forall i, j | 0 <= i < j < |r| ensures key(r[i]) >= key(r[j]) {
      assert r[j] == s[j - 1];
      if i > 0 {
        assert r[i] == s[i - 1];
      }
    }
  }

  /** When `x` ranks below the head of `s`, nothing in the insertion of `x`
      into the tail outranks the head. */
  lemma InsertedBelowHead<T>(x: T, s: seq<T>, key: T -> int, rest: seq<T>)
    requires |s| > 0 && SortedDesc(s, key) && key(x) < key(s[0])
    requires multiset(rest) == multiset(s[1..]) + multiset{x}
    ensures forall y | y in rest :: key(y) <= key(s[0])
  {
    forall y | y in rest ensures key(y) <= key(s[0]) {
      assert y in multiset(rest);
      if y != x {
        assert y in multiset(s[1..]);
        var j :| 0 <= j < |s[1..]| && s[1..][j] == y;
        assert s[j + 1] == y;
      }
    }
  }

  /** A permutation of `s` in non-increasing key order (ORDER BY key DESC). */
  function SortDesc<T(==,!new)>(s: seq<T>, key: T -> int): (r: seq<T>)
    ensures SortedDesc(r, key)
    ensures multiset(r) == multiset(s)
    ensures |r| == |s|
  {
    if |s| == 0 then []
    else
      assert s == [s[0]] + s[1..];
      InsertDesc(s[0], SortDesc(s[1..], key), key)
  }

  /** `r` is a correct answer to `SELECT … WHERE p ORDER BY key DESC`: exactly
      the matching rows, with multiplicity, keys non-increasing. */
  predicate IsOrderedSelection<T(==,!new)>(r: seq<T>, rows: seq<T>, p: T -> bool, key: T -> int) {
    multiset(r) == multiset(Filter(rows, p)) && SortedDesc(r, key)
  }

  /** `r` is a correct answer to `SELECT … WHERE p ORDER BY key DESC LIMIT n`:
      the first `n` rows of some correct unlimited answer. */
  ghost predicate IsLimitedSelection<T(!new)>(r: seq<T>, rows: seq<T>, p: T -> bool, key: T -> int, n: nat) {
    exists full :: IsOrderedSelection(full, rows, p, key) && r == full[..Min(n, |full|)]
  }

  /** `r` is a correct answer to `SELECT … WHERE p` with no ORDER BY. */
  predicate IsUnorderedSelection<T(==,!new)>(r: seq<T>, rows: seq<T>, p: T -> bool) {
    multiset(r) == multiset(Filter(rows, p))
  }

  /** `r` is a correct answer to `SELECT … WHERE p LIMIT 1` with no ORDER BY:
      some matching row, absent exactly when none matches. */
  predicate IsAnyMatch<T(==,!new)>(r: Option<T>, rows: seq<T>, p: T -> bool) {
    && (r.None? <==> forall y :: y in rows ==> !p(y))
    && (r.Some? ==> r.value in rows && p(r.value))
  }

  /** `r` is a correct answer to `SELECT … WHERE p ORDER BY key DESC LIMIT 1`:
      a matching row whose key no matching row exceeds. */
  predicate IsLatestMatch<T(==,!new)>(r: Option<T>, rows: seq<T>, p: T -> bool, key: T -> int) {
    && IsAnyMatch(r, rows, p)
    && (r.Some? ==> forall y :: y in rows && p(y) ==> key(y) <= key(r.value))
  }

  /** One correct answer to an ORDER BY … DESC query. */
  function OrderedSelect<T(==,!new)>(rows: seq<T>, p: T -> bool, key: T -> int): (r: seq<T>)
    ensures IsOrderedSelection(r, rows, p, key)
  {
    SortDesc(Filter(rows, p), key)
  }

  /** One correct answer to an ORDER BY … DESC LIMIT n query. */
  function LimitedSelect<T(==,!new)>(rows: seq<T>, p: T -> bool, key: T -> int, n: nat): (r: seq<T>)
    ensures IsLimitedSelection(r, rows, p, key, n)
  {
    var full := OrderedSelect(rows, p, key);
    full[..Min(n, |full|)]
  }

  /** One correct answer to a LIMIT 1 query without ORDER BY: the first match. */
  function FirstMatch<T(==,!new)>(rows: seq<T>, p: T -> bool): (r: Option<T>)
    ensures IsAnyMatch(r, rows, p)
  {
    var f := Filter(rows, p);
    if |f| == 0 then None else Some(f[0])
  }

  /** One correct answer to an ORDER BY … DESC LIMIT 1 query. */
  function LatestMatch<T(==,!new)>(rows: seq<T>, p: T -> bool, key: T -> int): (r: Option<T>)
    ensures IsLatestMatch(r, rows, p, key)
  {
    var full := OrderedSelect(rows, p, key);
    if |full| == 0 then
      assert forall y | y in rows && p(y) :: y in multiset(full);
      None
    else
      FirstIsMax(full, key);
      assert forall y | y in rows && p(y) :: y in multiset(full);
      assert full[0] in multiset(Filter(rows, p));
      Some(full[0])
  }

  /** The head of a key-descending sequence carries the largest key. */
  lemma FirstIsMax<T>(s: seq<T>, key: T -> int)
    requires SortedDesc(s, key) && |s| > 0
    ensures forall y | y in s :: key(y) <= key(s[0])
  {
    forall y | y in s ensures key(y) <= key(s[0]) {
      var i :| 0 <= i < |s| && s[i] == y;
      if i > 0 {
        assert key(s[0]) >= key(s[i]);
      }
    }
  }

  /** Every row of an ordered answer matches, and every matching row is in it. */
  lemma OrderedSelectionMembers<T(!new)>(r: seq<T>, rows: seq<T>, p: T -> bool, key: T -> int)
    requires IsOrderedSelection(r, rows, p, key)
    ensures forall x :: x in r <==> x in rows && p(x)
  {
    forall x ensures x in r <==> x in rows && p(x) {
      assert x in r <==> x in multiset(r);
      assert x in Filter(rows, p) <==> x in multiset(Filter(rows, p));
    }
  }

  /** Any answer to a limited ordered query holds at most `n` matching rows
      in non-increasing key order. */
  lemma LimitedSelectionFacts<T(!new)>(r: seq<T>, rows: seq<T>, p: T -> bool, key: T -> int, n: nat)
    requires IsLimitedSelection(r, rows, p, key, n)
    ensures |r| <= n
    ensures forall x | x in r :: x in rows && p(x)
    ensures SortedDesc(r, key)
  {
    var full :| IsOrderedSelection(full, rows, p, key) && r == full[..Min(n, |full|)];
    OrderedSelectionMembers(full, rows, p, key);
    assert forall x | x in r :: x in full;
  }

  /** In a key-descending sequence no row after position `n` outranks a row
      before it: the first `n` rows are a top-`n`. */
  lemma PrefixDominates<T>(s: seq<T>, key: T -> int, n: nat)
    requires SortedDesc(s, key) && n <= |s|
    ensures forall x, y | x in s[..n] && y in s[n..] :: key(y) <= key(x)
  {
    forall x, y | x in s[..n] && y in s[n..] ensures key(y) <= key(x) {
      var i :| 0 <= i < n && s[..n][i] == x;
      var j :| 0 <= j < |s| - n && s[n..][j] == y;
      assert s[i] == x && s[n + j] == y;
    }
  }

  /** Filtering a table with one row appended filters the old rows and then
      keeps or drops the new one. */
  lemma {:induction false} FilterAppend<T(!new)>(s: seq<T>, x: T, p: T -> bool)
    ensures Filter(s + [x], p) == Filter(s, p) + (if p(x) then [x] else [])
  {
    var last: seq<T> := if p(x) then [x] else [];
    if |s| == 0 {
      assert s + [x] == [x];
      assert Filter([x], p) == last + Filter([x][1..], p);
    } else {
      var sx := s + [x];
      var head: seq<T> := if p(s[0]) then [s[0]] else [];
      assert sx[0] == s[0] && sx[1..] == s[1..] + [x];
      calc {
        Filter(sx, p);
        head + Filter(sx[1..], p);
        head + Filter(s[1..] + [x], p);
        { FilterAppend(s[1..], x, p); }
        head + (Filter(s[1..], p) + last);
        (head + Filter(s[1..], p)) + last;
        Filter(s, p) + last;
      }
    }
  }

  /** JavaScript's `s.slice(0, n)`: the first `n` elements, or all of them
      when there are fewer. */
  function Take<T>(s: seq<T>, n: nat): (r: seq<T>)
    ensures |r| <= n && |r| <= |s|
    ensures |r| == n || r == s
    ensures forall i | 0 <= i < |r| :: r[i] == s[i]
  {
    if |s| <= n then s else s[..n]
  }

  /** Removing the head of `a` and a matching element of its permutation `b`
      leaves permutations of each other. */
  lemma TailsMatch<T>(a: seq<T>, b: seq<T>, i: int)
    requires multiset(a) == multiset(b)
    requires |a| > 0 && 0 <= i < |b| && b[i] == a[0]
    ensures multiset(a[1..]) == multiset(b[..i] + b[i + 1..])
  {
    MultisetRemove(b, i);
    assert a == [a[0]] + a[1..];
    assert multiset(a) == multiset{a[0]} + multiset(a[1..]);
  }

  /** Removing the element at `i` removes one occurrence of it. */
  lemma MultisetRemove<T>(s: seq<T>, i: int)
    requires 0 <= i < |s|
    ensures multiset(s[..i] + s[i + 1..]) == multiset(s) - multiset{s[i]}
  {
    assert s == s[..i] + [s[i]] + s[i + 1..];
  }
}

=== FILE: surf.dfy ===
/** The values the private-browser page derives from the tracker statistics:
    the "Trackers Blocked" total and the top trackers it lists. */
module Surf {
  import opened Common
  import opened Seqs
  import opened Schema
  import opened Data

  /** The sum of `blockCount` over `s`. */
  function SumBlocks(s: seq<TrackerBlock>): int {
    if |s| == 0 then 0 else s[0].blockCount + SumBlocks(s[1..])
  }

  /** "Trackers Blocked": the summed counts, 0 without data. */
  function TotalBlocked(stats: Option<seq<TrackerBlock>>): (r: int)
    ensures stats.None? || stats.value == [] ==> r == 0
    ensures stats.Some? ==> r == SumBlocks(stats.value)
  {
    if stats.None? then 0 else SumBlocks(stats.value)
  }

  /** Taking one row out of the sum subtracts its count. */
  lemma {:induction false} SumRemove(s: seq<TrackerBlock>, i: int)
    requires 0 <= i < |s|
    ensures SumBlocks(s) == s[i].blockCount + SumBlocks(s[..i] + s[i + 1..])
  {
    if i > 0 {
      SumRemove(s[1..], i - 1);
      assert s[..i] + s[i + 1..] == [s[0]] + (s[1..][..i - 1] + s[1..][i..]);
    } else {
      assert s[..i] + s[i + 1..] == s[1..];
    }
  }

  /** The total does not depend on the order the rows arrive in — which SQL
      leaves open among trackers with equal counts. */
  lemma {:induction false} SumPermutation(a: seq<TrackerBlock>, b: seq<TrackerBlock>)
    requires multiset(a) == multiset(b)
    ensures SumBlocks(a) == SumBlocks(b)
    decreases |a|
  {
    if |a| == 0 {
      assert |b| == |multiset(b)| == 0;
    } else {
      var x := a[0];
      assert x in multiset(b);
      var i :| 0 <= i < |b| && b[i] == x;
      var rest := b[..i] + b[i + 1..];
      SumRemove(b, i);
      TailsMatch(a, b, i);
      SumPermutation(a[1..], rest);
    }
  }

  /** Every correct answer to `getTrackerBlockStats` gives the same total. */
  lemma TotalDetermined(db: Db, uid: int, r: seq<TrackerBlock>)
    requires IsOrderedSelection(r, db.trackerBlocks.rows, TrackerOf(uid), TrackerBlockCount)
    ensures TotalBlocked(Some(r)) == TotalBlocked(Some(GetTrackerBlockStats(Some(db), uid)))
  {
    SumPermutation(r, GetTrackerBlockStats(Some(db), uid));
  }

  /** With no negative count, the total is at least every row's count. */
  lemma {:induction false} SumBoundsEach(s: seq<TrackerBlock>)
    requires forall t | t in s :: t.blockCount >= 0
    ensures SumBlocks(s) >= 0
    ensures forall t | t in s :: SumBlocks(s) >= t.blockCount
  {
    if |s| > 0 {
      assert forall t | t in s[1..] :: t in s;
      SumBoundsEach(s[1..]);
    }
  }

  /** How many trackers the page lists. */
  const TopTrackerCount: nat := 5

  /** The trackers listed: the first five in server order. */
  function TopTrackers(stats: Option<seq<TrackerBlock>>): (r: seq<TrackerBlock>)
    ensures |r| <= TopTrackerCount
    ensures stats.None? ==> r == []
    ensures stats.Some? ==> |r| == Min(TopTrackerCount, |stats.value|)
    ensures stats.Some? ==> forall i | 0 <= i < |r| :: r[i] == stats.value[i]
  {
    if stats.None? then [] else Take(stats.value, TopTrackerCount)
  }

  /** Fed by any correct answer to `getTrackerBlockStats`, the listed trackers
      are the user's, no unlisted tracker of the user has a higher count than
      a listed one, and — counts being non-negative — the total is at least
      each listed count. */
  lemma TopTrackersDominate(db: Db, uid: int, stats: seq<TrackerBlock>)
    requires IsOrderedSelection(stats, db.trackerBlocks.rows, TrackerOf(uid), TrackerBlockCount)
    requires forall t | t in db.trackerBlocks.rows :: t.blockCount >= 0
    ensures var top := TopTrackers(Some(stats));
      && (forall t | t in top :: t.userId == uid)
      && (forall t, u | t in top && u in stats[|top|..] :: u.blockCount <= t.blockCount)
      && (forall t | t in top :: TotalBlocked(Some(stats)) >= t.blockCount)
  {
    var top := TopTrackers(Some(stats));
    OrderedSelectionMembers(stats, db.trackerBlocks.rows, TrackerOf(uid), TrackerBlockCount);
    assert top == stats[..|top|];
    PrefixDominates(stats, TrackerBlockCount, |top|);
    SumBoundsEach(stats);
    forall t | t in top ensures t in stats {
      var i :| 0 <= i < |top| && top[i] == t;
      assert stats[i] == t;
    }
  }
}

=== FILE: upsert.dfy ===
/** `upsertUser` (server/db.ts): the decision logic that turns a login's
    user record into an insert row and an ON DUPLICATE KEY UPDATE set, and
    the effect of that statement on the `users` table, whose `openId` column
    is unique. */
module UserUpsert {
  import opened Common
  import opened Schema

  /** A nullable text field of the input: left out (`undefined`), explicitly
      `null`, or a value. */
  datatype Nullable<T> = Omitted | Null | Given(value: T)

  /** The caller's record. `openId` is `None` when missing; the columns the
      function never reads (`id`, `createdAt`, `updatedAt`) are not carried. */
  datatype UserInput = UserInput(
    openId: Option<string>,
    name: Nullable<string>,
    email: Nullable<string>,
    loginMethod: Nullable<string>,
    role: Option<Role>,
    lastSignedIn: Option<Timestamp>)

  /** The row handed to INSERT; an `Omitted`/`None` column takes its default. */
  datatype InsertValues = InsertValues(
    openId: string,
    name: Nullable<string>,
    email: Nullable<string>,
    loginMethod: Nullable<string>,
    role: Option<Role>,
    lastSignedIn: Timestamp)

  /** The assignments of the ON DUPLICATE KEY UPDATE clause; an
      `Omitted`/`None` column is not assigned. */
  datatype UpdateSet = UpdateSet(
    name: Nullable<string>,
    email: Nullable<string>,
    loginMethod: Nullable<string>,
    role: Option<Role>,
    lastSignedIn: Option<Timestamp>)
  {
    predicate IsEmpty() {
      name.Omitted? && email.Omitted? && loginMethod.Omitted? && role.None? && lastSignedIn.None?
    }
  }

  /** An openId that passes the `!user.openId` guard: present and non-empty. */
  predicate UsableOpenId(o: Option<string>) {
    o.Some? && o.value != ""
  }

  /** The role written on both paths: a supplied role as-is, otherwise
      `admin` for the configured owner, otherwise none (column default). */
  function ChosenRole(u: UserInput, openId: string, owner: string): Option<Role> {
    if u.role.Some? then u.role
    else if openId == owner then Some(AdminRole)
    else None
  }

  /** Builds the insert row and the update set from the input. */
  function Assemble(u: UserInput, openId: string, owner: string, now: Timestamp): (r: (InsertValues, UpdateSet))
    ensures r.0.openId == openId
    ensures r.0.name == r.1.name == u.name
    ensures r.0.email == r.1.email == u.email
    ensures r.0.loginMethod == r.1.loginMethod == u.loginMethod
    ensures u.role.Some? ==> r.0.role == r.1.role == u.role
    ensures u.role.None? && openId == owner ==> r.0.role == r.1.role == Some(AdminRole)
    ensures u.role.None? && openId != owner ==> r.0.role.None? && r.1.role.None?
    ensures r.0.lastSignedIn == (if u.lastSignedIn.Some? then u.lastSignedIn.value else now)
    ensures !r.1.IsEmpty()
    ensures u.lastSignedIn.Some? ==> r.1.lastSignedIn == u.lastSignedIn
    ensures u.lastSignedIn.None? ==>
              (r.1.lastSignedIn.Some? <==>
                 u.name.Omitted? && u.email.Omitted? && u.loginMethod.Omitted? && r.1.role.None?)
    ensures r.1.lastSignedIn.Some? ==> r.1.lastSignedIn.value == r.0.lastSignedIn
  {
    var role := ChosenRole(u, openId, owner);
    var values := InsertValues(openId, u.name, u.email, u.loginMethod, role, u.lastSignedIn.OrElse(now));
    var upd := UpdateSet(u.name, u.email, u.loginMethod, role, u.lastSignedIn);
    if upd.IsEmpty() then (values, upd.(lastSignedIn := Some(now))) else (values, upd)
  }

  /** A nullable column after an update assignment. */
  function Overwrite(prior: Option<string>, f: Nullable<string>): Option<string> {
    match f
    case Omitted => prior
    case Null => None
    case Given(v) => Some(v)
  }

  /** A nullable column as inserted: both an omitted and a null field store NULL. */
  function Stored(f: Nullable<string>): Option<string> {
    Overwrite(None, f)
  }

  /** The row INSERT creates, with the schema's defaults for the rest. */
  function NewUserRow(id: int, v: InsertValues, now: Timestamp): User {
    User(id, v.openId, Stored(v.name), Stored(v.email), Stored(v.loginMethod),
      v.role.OrElse(UserRole), now, now, v.lastSignedIn)
  }

  /** The row after the update clause; `updatedAt` moves to `now` only when
      some column actually changed (ON UPDATE CURRENT_TIMESTAMP). */
  function ApplyUpdate(row: User, upd: UpdateSet, now: Timestamp): User {
    var changed := row.(
      name := Overwrite(row.name, upd.name),
      email := Overwrite(row.email, upd.email),
      loginMethod := Overwrite(row.loginMethod, upd.loginMethod),
      role := upd.role.OrElse(row.role),
      lastSignedIn := upd.lastSignedIn.OrElse(row.lastSignedIn));
    if changed == row then row else changed.(updatedAt := now)
  }

  predicate HasOpenId(rows: seq<User>, openId: string) {
    exists i :: 0 <= i < |rows| && rows[i].openId == openId
  }

  /** The rows after the update clause hit the row holding `openId`. */
  function UpdateOpenId(rows: seq<User>, openId: string, upd: UpdateSet, now: Timestamp): seq<User> {
    seq(|rows|, i requires 0 <= i < |rows| =>
      if rows[i].openId == openId then ApplyUpdate(rows[i], upd, now) else rows[i])
  }

  /** `upsertUser`: missing openId throws before the store is looked at; an
      absent store is a silent no-op; otherwise INSERT … ON DUPLICATE KEY
      UPDATE on the unique `openId`. Only the users table changes. */
  function UpsertUser(s: Store, u: UserInput, owner: string, now: Timestamp): (r: Outcome<Store>)
    ensures r.Err? <==> !UsableOpenId(u.openId)
    ensures r.Err? ==> r.error == MissingOpenId
    ensures r.Ok? && s.None? ==> r.value.None?
    ensures r.Ok? && s.Some? ==> r.value.Some? && r.value.value == s.value.(users := r.value.value.users)
  {
    if !UsableOpenId(u.openId) then Err(MissingOpenId)
    else if s.None? then Ok(None)
    else
      var db := s.value;
      var openId := u.openId.value;
      var (values, upd) := Assemble(u, openId, owner, now);
      if HasOpenId(db.users.rows, openId) then
        Ok(Some(db.(users := db.users.(rows := UpdateOpenId(db.users.rows, openId, upd, now)))))
      else
        Ok(Some(db.(users := Insert(db.users, NewUserRow(db.users.nextId, values, now)))))
  }

  /** The users table after a successful upsert on an available store. */
  function UsersAfter(db: Db, u: UserInput, owner: string, now: Timestamp): seq<User>
    requires UsableOpenId(u.openId)
  {
    UpsertUser(Some(db), u, owner, now).value.value.users.rows
  }

  /** Upsert keeps every declared key of the store: primary keys and the
      unique `openId`. */
  lemma UpsertKeepsValid(db: Db, u: UserInput, owner: string, now: Timestamp)
    requires db.Valid() && UsableOpenId(u.openId)
    ensures UpsertUser(Some(db), u, owner, now).value.value.Valid()
  {
    var openId := u.openId.value;
    var upd := Assemble(u, openId, owner, now).1;
    var db' := UpsertUser(Some(db), u, owner, now).value.value;
    if HasOpenId(db.users.rows, openId) {
      var rows' := UpdateOpenId(db.users.rows, openId, upd, now);
      assert forall i | 0 <= i < |rows'| :: rows'[i].id == db.users.rows[i].id && rows'[i].openId == db.users.rows[i].openId;
      assert db'.users.rows == rows';
    } else {
      var row := NewUserRow(db.users.nextId, Assemble(u, openId, owner, now).0, now);
      InsertKeepsKeys(db.users, row, UserKey);
      forall y | y in db.users.rows ensures UserOpenId(y) != UserOpenId(row) {
        var k :| 0 <= k < |db.users.rows| && db.users.rows[k] == y;
      }
      SnocKeepsDistinct(db.users.rows, row, UserOpenId);
    }
  }

  /** After an upsert exactly one row holds the openId: there is one, and the
      unique key admits no second. */
  lemma UpsertLeavesOneRow(db: Db, u: UserInput, owner: string, now: Timestamp)
    requires db.Valid() && UsableOpenId(u.openId)
    ensures var rows := UsersAfter(db, u, owner, now);
      && HasOpenId(rows, u.openId.value)
      && forall i, j | 0 <= i < |rows| && 0 <= j < |rows| && rows[i].openId == rows[j].openId == u.openId.value :: i == j
  {
    UpsertKeepsValid(db, u, owner, now);
    var rows := UsersAfter(db, u, owner, now);
    if HasOpenId(db.users.rows, u.openId.value) {
      var k :| 0 <= k < |db.users.rows| && db.users.rows[k].openId == u.openId.value;
      assert rows[k].openId == u.openId.value;
    } else {
      assert rows[|rows| - 1].openId == u.openId.value;
    }
    assert DistinctBy(rows, UserOpenId);
  }

  /** Upserting an openId that exists rewrites that row only: a supplied text
      field overwrites (explicit null clears it), an omitted one stays; the
      role follows the explicit-role-else-owner rule; `lastSignedIn` takes
      the supplied value, or `now` when nothing else would be assigned, and
      otherwise keeps its stored value (so the owner's login without a role,
      which assigns `admin`, does not refresh it). The
      row keeps its id and creation time; every other row is unchanged. */
  lemma UpsertExistingRow(db: Db, u: UserInput, owner: string, now: Timestamp, k: nat)
    requires UsableOpenId(u.openId)
    requires k < |db.users.rows| && db.users.rows[k].openId == u.openId.value
    ensures var rows := UsersAfter(db, u, owner, now);
      var before := db.users.rows[k];
      var row := rows[k];
      && |rows| == |db.users.rows|
      && (forall i | 0 <= i < |rows| && db.users.rows[i].openId != u.openId.value :: rows[i] == db.users.rows[i])
      && row.id == before.id && row.openId == before.openId && row.createdAt == before.createdAt
      && (u.name.Omitted? ==> row.name == before.name)
      && (u.name.Null? ==> row.name.None?)
      && (u.name.Given? ==> row.name == Some(u.name.value))
      && (u.email.Omitted? ==> row.email == before.email)
      && (u.email.Null? ==> row.email.None?)
      && (u.email.Given? ==> row.email == Some(u.email.value))
      && (u.loginMethod.Omitted? ==> row.loginMethod == before.loginMethod)
      && (u.loginMethod.Null? ==> row.loginMethod.None?)
      && (u.loginMethod.Given? ==> row.loginMethod == Some(u.loginMethod.value))
      && (u.role.Some? ==> row.role == u.role.value)
      && (u.role.None? && u.openId.value == owner ==> row.role == AdminRole)
      && (u.role.None? && u.openId.value != owner ==> row.role == before.role)
      && (u.lastSignedIn.Some? ==> row.lastSignedIn == u.lastSignedIn.value)
      && ((u.lastSignedIn.None? && u.name.Omitted? && u.email.Omitted? && u.loginMethod.Omitted?
           && u.role.None? && u.openId.value != owner) ==> row.lastSignedIn == now)
      && ((u.lastSignedIn.None? && !(u.name.Omitted? && u.email.Omitted? && u.loginMethod.Omitted?
           && u.role.None? && u.openId.value != owner)) ==> row.lastSignedIn == before.lastSignedIn)
  {
    assert HasOpenId(db.users.rows, u.openId.value);
  }

  /** Upserting a new openId appends one row built from the insert half:
      absent text fields are NULL, the role is the supplied one, else
      `admin` for the owner, else the column default `user`, and
      `lastSignedIn` is the supplied time or `now`. */
  lemma UpsertNewRow(db: Db, u: UserInput, owner: string, now: Timestamp)
    requires UsableOpenId(u.openId) && !HasOpenId(db.users.rows, u.openId.value)
    ensures var rows := UsersAfter(db, u, owner, now);
      var row := rows[|rows| - 1];
      && |rows| == |db.users.rows| + 1
      && rows[..|db.users.rows|] == db.users.rows
      && row.id == db.users.nextId && row.openId == u.openId.value
      && row.name == (if u.name.Given? then Some(u.name.value) else None)
      && row.email == (if u.email.Given? then Some(u.email.value) else None)
      && row.loginMethod == (if u.loginMethod.Given? then Some(u.loginMethod.value) else None)
      && row.role == (if u.role.Some? then u.role.value
                      else if u.openId.value == owner then AdminRole else UserRole)
      && row.lastSignedIn == (if u.lastSignedIn.Some? then u.lastSignedIn.value else now)
      && row.createdAt == now
  {
  }

  /** The owner's openId ends up `admin` when no role is supplied, and a
      supplied role is stored as given even for the owner — on either path. */
  lemma UpsertRole(db: Db, u: UserInput, owner: string, now: Timestamp)
    requires UsableOpenId(u.openId)
    ensures forall x | x in UsersAfter(db, u, owner, now) && x.openId == u.openId.value ::
      && (u.role.Some? ==> x.role == u.role.value)
      && (u.role.None? && u.openId.value == owner ==> x.role == AdminRole)
  {
    var rows := UsersAfter(db, u, owner, now);
    forall x | x in rows && x.openId == u.openId.value
      ensures u.role.Some? ==> x.role == u.role.value
      ensures u.role.None? && u.openId.value == owner ==> x.role == AdminRole
    {
      var k :| 0 <= k < |rows| && rows[k] == x;
      if HasOpenId(db.users.rows, u.openId.value) {
        UpsertExistingRow(db, u, owner, now, k);
      } else {
        UpsertNewRow(db, u, owner, now);
      }
    }
  }

  /** Two upserts of the same openId leave one row, whose fields are those
      the second call supplied: a value is stored, an explicit null clears
      the column, and the role follows the explicit-role-else-owner rule. */
  lemma UpsertTwice(db: Db, u1: UserInput, u2: UserInput, owner: string, t1: Timestamp, t2: Timestamp)
    requires db.Valid() && UsableOpenId(u1.openId) && u2.openId == u1.openId
    ensures var db1 := UpsertUser(Some(db), u1, owner, t1).value.value;
      var rows := UsersAfter(db1, u2, owner, t2);
      && HasOpenId(rows, u1.openId.value)
      && (forall i, j | 0 <= i < |rows| && 0 <= j < |rows| && rows[i].openId == rows[j].openId == u1.openId.value :: i == j)
      && (forall x | x in rows && x.openId == u1.openId.value ::
            && (u2.name.Given? ==> x.name == Some(u2.name.value))
            && (u2.name.Null? ==> x.name.None?)
            && (u2.email.Given? ==> x.email == Some(u2.email.value))
            && (u2.email.Null? ==> x.email.None?)
            && (u2.loginMethod.Given? ==> x.loginMethod == Some(u2.loginMethod.value))
            && (u2.loginMethod.Null? ==> x.loginMethod.None?)
            && (u2.role.Some? ==> x.role == u2.role.value)
            && (u2.role.None? && u1.openId.value == owner ==> x.role == AdminRole)
            && (u2.lastSignedIn.Some? ==> x.lastSignedIn == u2.lastSignedIn.value))
  {
    var db1 := UpsertUser(Some(db), u1, owner, t1).value.value;
    UpsertKeepsValid(db, u1, owner, t1);
    UpsertLeavesOneRow(db, u1, owner, t1);
    UpsertLeavesOneRow(db1, u2, owner, t2);
    var rows := UsersAfter(db1, u2, owner, t2);
    var k :| 0 <= k < |db1.users.rows| && db1.users.rows[k].openId == u1.openId.value;
    UpsertExistingRow(db1, u2, owner, t2, k);
    forall x | x in rows && x.openId == u1.openId.value ensures x == rows[k] {
      var i :| 0 <= i < |rows| && rows[i] == x;
    }
  }
}

=== FILE: vault.dfy ===
/** The values the password-vault page derives from its two queries (all
    entries, breached entries): the stat counts, the breach banner, the
    listed entries and each entry's status label. Absent data (`None`) is a
    query that has not answered. */
module Vault {
  import opened Common
  import opened Seqs
  import opened Schema
  import opened Data

  predicate IsStrongEntry(e: PasswordEntry) { e.passwordStrength == Strong }
  predicate IsGoodEntry(e: PasswordEntry) { e.passwordStrength == Good }
  /** The page counts `fair` entries as weak. */
  predicate IsWeakEntry(e: PasswordEntry) { e.passwordStrength == Weak || e.passwordStrength == Fair }

  /** The number of entries of `s` satisfying `p`. */
  function CountWhere(s: seq<PasswordEntry>, p: PasswordEntry -> bool): nat {
    |Filter(s, p)|
  }

  /** "Total Passwords". */
  function TotalCount(entries: Option<seq<PasswordEntry>>): nat {
    if entries.None? then 0 else |entries.value|
  }

  /** "Strong Passwords". */
  function StrongCount(entries: Option<seq<PasswordEntry>>): nat {
    if entries.None? then 0 else CountWhere(entries.value, IsStrongEntry)
  }

  /** "Weak Passwords": weak or fair. */
  function WeakCount(entries: Option<seq<PasswordEntry>>): nat {
    if entries.None? then 0 else CountWhere(entries.value, IsWeakEntry)
  }

  /** "Compromised": the length of the breached list. */
  function CompromisedCount(breached: Option<seq<PasswordEntry>>): nat {
    if breached.None? then 0 else |breached.value|
  }

  /** The "Breached Passwords Detected" banner is shown. */
  predicate ShowBreachBanner(breached: Option<seq<PasswordEntry>>) {
    breached.Some? && |breached.value| > 0
  }

  /** Every entry has exactly one strength, so the weak (weak or fair), good
      and strong counts add up to the list length. */
  lemma {:induction false} StrengthPartition(s: seq<PasswordEntry>)
    ensures CountWhere(s, IsWeakEntry) + CountWhere(s, IsGoodEntry) + CountWhere(s, IsStrongEntry) == |s|
  {
    if |s| > 0 {
      StrengthPartition(s[1..]);
      assert s == [s[0]] + s[1..];
    }
  }

  /** The stat counts are consistent: all are zero without data; strong and
      weak never overlap, so together they never exceed the total; the
      entries neither strong nor weak are exactly the `good` ones. */
  lemma VaultStats(entries: Option<seq<PasswordEntry>>)
    ensures entries.None? ==> TotalCount(entries) == StrongCount(entries) == WeakCount(entries) == 0
    ensures StrongCount(entries) + WeakCount(entries) <= TotalCount(entries)
    ensures entries.Some? ==>
      TotalCount(entries) - StrongCount(entries) - WeakCount(entries) == CountWhere(entries.value, IsGoodEntry)
  {
    if entries.Some? {
      StrengthPartition(entries.value);
    }
  }

  /** The banner shows exactly when the compromised count is positive. */
  lemma BannerMatchesCount(breached: Option<seq<PasswordEntry>>)
    ensures ShowBreachBanner(breached) <==> CompromisedCount(breached) > 0
  {
  }

  /** Fed by `getBreachedPasswords`, the banner shows exactly when the store
      holds a breached entry of the user, and the count is their number. */
  lemma BannerMeansBreach(db: Db, uid: int)
    ensures var breached := Some(GetBreachedPasswords(Some(db), uid));
      && (ShowBreachBanner(breached) <==>
            exists e :: e in db.passwordEntries.rows && e.userId == uid && e.isBreached == 1)
      && CompromisedCount(breached) == |Filter(db.passwordEntries.rows, BreachedPasswordOf(uid))|
  {
    var rows := db.passwordEntries.rows;
    var b := GetBreachedPasswords(Some(db), uid);
    if exists e :: e in rows && e.userId == uid && e.isBreached == 1 {
      var e :| e in rows && e.userId == uid && e.isBreached == 1;
      assert e in Filter(rows, BreachedPasswordOf(uid));
    }
    if |b| > 0 {
      assert b[0] in Filter(rows, BreachedPasswordOf(uid));
      assert b[0] in rows && b[0].userId == uid && b[0].isBreached == 1;
    }
  }

  /** How many entries the page lists. */
  const ListedEntryCount: nat := 8

  /** The entries listed: the first eight in server order. */
  function ListedEntries(entries: Option<seq<PasswordEntry>>): (r: seq<PasswordEntry>)
    ensures |r| <= ListedEntryCount
    ensures entries.None? ==> r == []
    ensures entries.Some? ==> |r| == Min(ListedEntryCount, |entries.value|)
    ensures entries.Some? ==> forall i | 0 <= i < |r| :: r[i] == entries.value[i]
  {
    if entries.None? then [] else Take(entries.value, ListedEntryCount)
  }

  /** What a listed entry shows under its site: "Compromised", or its strength. */
  datatype EntryStatus = Compromised | Rated(strength: Strength)

  /** A nonzero `isBreached` is truthy and wins over the strength. */
  function StatusOf(e: PasswordEntry): (r: EntryStatus)
    ensures r == Compromised <==> e.isBreached != 0
    ensures r.Rated? ==> r.strength == e.passwordStrength
  {
    if e.isBreached != 0 then Compromised else Rated(e.passwordStrength)
  }

  /** Fed by any correct answer to `getPasswordEntries`, every listed entry
      is the user's; no unlisted entry is newer than a listed one; and each
      listed entry the store marks breached is one the breach banner's query
      returns, and shows "Compromised". */
  lemma ListedBreachedShowCompromised(db: Db, uid: int, all: seq<PasswordEntry>, listed: seq<PasswordEntry>)
    requires IsOrderedSelection(all, db.passwordEntries.rows, PasswordOf(uid), PasswordCreatedAt)
    requires listed == ListedEntries(Some(all))
    ensures forall e | e in listed :: e.userId == uid
    ensures forall e, f | e in listed && f in all[|listed|..] :: f.createdAt <= e.createdAt
    ensures forall e | e in listed && e.isBreached == 1 ::
              e in GetBreachedPasswords(Some(db), uid) && StatusOf(e) == Compromised
  {
    OrderedSelectionMembers(all, db.passwordEntries.rows, PasswordOf(uid), PasswordCreatedAt);
    PrefixDominates(all, PasswordCreatedAt, |listed|);
    assert listed == all[..|listed|];
    forall e | e in listed ensures e.userId == uid && e in db.passwordEntries.rows {
      assert e in all;
    }
    forall e | e in listed && e.isBreached == 1 ensures e in GetBreachedPasswords(Some(db), uid) {
      assert BreachedPasswordOf(uid)(e);
    }
  }

  /** The colour of the strength dot of an entry that is not compromised. */
  function StrengthDot(s: Strength): (c: string)
    ensures c == "bg-green-500" <==> s == Strong
    ensures c == "bg-blue-500" <==> s == Good
    ensures c == "bg-yellow-500" <==> s == Fair
    ensures c == "bg-red-500" <==> s == Weak
  {
    match s
    case Strong => "bg-green-500"
    case Good => "bg-blue-500"
    case Fair => "bg-yellow-500"
    case Weak => "bg-red-500"
  }
}
